=== FILE: README.md ===
# GENESIS AI concierge — a Dafny model of its core logic

GENESIS is a banking-app demo with a chat concierge. A message goes to one of
four agents: GENERAL, SUPPORT, NEWS and ANALYST. The Python backend builds each
agent's prompt from the message and the user's profile. It calls a large
language model, collects grounding citations and, for NEWS, speech audio. No
exception raised inside an agent strategy escapes. The React front end decodes
the speech as 16-bit PCM, renders replies with a small Markdown renderer, edits the profile,
and runs the chat session.

This project models those pieces as pure Dafny functions and methods and
proves what they promise:

| file | module | models |
|---|---|---|
| `base.dfy` | `Base` | `Option`, `Result`, `byte` |
| `strings.dfy` | `Strings` | the JavaScript and Python string operations the code relies on: `trim`, `split` on one character, `join`, and first-occurrence `replace` |
| `types.dfy` | `Types` | `types.ts` records and the `AGENTS` and profile catalogs of `constants.ts` |
| `agent.dfy` | `Agent` | `backend/agent.py`: profile context, citation extraction, the four strategies and `generate_response` |
| `audio.dfy` | `Audio` | `services/audioUtils.ts`: `decode` and `decodeAudioData` |
| `markdown.dfy` | `Markdown` | `components/MarkdownRenderer.tsx`: line classification and `parseBold` |
| `profile.dfy` | `ProfileEditor` | `components/UserProfileModal.tsx`: initial profile, interest toggling, the selects, saving |
| `chat.dfy` | `Chat` | `components/ChatInterface.tsx`: the session state and its handlers as transitions |

External services are not part of the model:

- The generative model, Vertex AI Search and BigQuery enter as one value, `Agent.Services`.
- `generate` maps every request to a response or to a raised exception.
  Because the exact request is the input, the prompts the backend builds are
  part of the model, word for word.
- `warehouse` is the serialized transaction rows, or an exception.
- `parseJson` stands for `json.loads`, returning `None` on a decode error.

Time, ids, logging and the browser's audio objects are left out.

Some behaviours of the code are easy to misread; the model states them as
the code has them:

- **NEWS audio.** When the summary or speech call fails, NEWS still returns
  the article and its citations, with `audioBase64` set to `None`. Only a
  failing article call makes the request fail.
- **SUPPORT grounding.** SUPPORT grounds on a Vertex AI Search data store. It
  does not embed a document corpus in its prompt.
- **Profile placeholder.** For `ageGroup`, `prefecture` and `occupation`,
  "未設定" replaces a missing key only; an empty string or `None` value is
  printed as it is. For `interests` the test is truthiness: a missing key,
  `None` and an empty list all show "未設定".
- **Audio decoding.** Decoding and then multiplying by 32768 recovers every
  sample exactly.
- **Error text.** Any exception inside a strategy becomes the single apology "申し訳ありません。エラーが発生しました。".
- **SUPPORT prompt.** The SUPPORT prompt is an f-string written with `${...}`,
  so a literal `$` comes before the profile context.

## Model

| member | source | states |
|---|---|---|
| Agent.FieldPlaceholder | backend/agent.py:34-36 | a profile value shows "未設定" exactly when its key is missing (or holds that text); a present `None` shows "None" and a present "" shows nothing |
| Agent.InterestsInOrder | backend/agent.py:31 | the interests line lists the entries in list order separated by ", "; a missing, `None` or empty list shows "未設定" |
| Agent.FormatProfileContext | backend/agent.py:28-41 | the context is empty if and only if the profile is falsy (`None` or an empty dict) |
| Agent.ProfileContextRoundTrip | backend/agent.py:28-41 | reading the rendered context back line by line recovers the four interpolated values, so nothing is lost or reordered; a falsy profile renders nothing |
| Agent.TitleOr | backend/agent.py:64 | a citation's title is the source title when it is non-empty, and the agent's placeholder otherwise |
| Agent.CiteAll | backend/agent.py:62-64 | every kept citation has a non-empty uri and a non-empty title, and no more citations than chunks are produced |
| Agent.CiteOne | backend/agent.py:63-64 | a single chunk yields its citation if and only if its source exists with a non-empty uri, and nothing otherwise |
| Agent.CiteAllAppend | backend/agent.py:62-64 | extraction distributes over concatenation of chunk lists, so citations keep the chunks' original order |
| Agent.CiteAllCount | backend/agent.py:62-64 | the number of citations equals the number of citable chunks: exactly those are kept |
| Agent.CitationExample | backend/agent.py:58-64 | chunks [no title + uri a, title B + empty uri, title C + uri c] give [placeholder/a, C/c] |
| Agent.Escape | backend/agent.py:123 | text with no backslash, quote or control escape is left unchanged |
| Agent.UnescapeEscape | backend/agent.py:123 | escaping a string for `repr` loses nothing: reading the escapes back restores it |
| Agent.PyStrRepr | backend/agent.py:123 | the delimiter is a double quote exactly when the string holds a single quote and no double quote, and a single quote otherwise; the text between is the string escaped for that delimiter |
| Agent.PyStrReprDoubleQuoted | backend/agent.py:123 | a string with a single quote, no double quote and nothing else to escape appears verbatim between double quotes |
| Agent.PyStrReprSwitchesQuote | backend/agent.py:123 | `repr("it's")` is `"it's"` |
| Agent.PyStrReprBothQuotes | backend/agent.py:123 | with both quotes present the single quote stays the delimiter and is escaped: `repr('\'"')` is `'\'"'` |
| Agent.PyStrReprRoundTrip | backend/agent.py:123 | a `repr` is the escaped text between two matching quotes, and unescaping its inside gives the string back |
| Agent.NewsAudio | backend/agent.py:146-180 | a failing summary call or speech call leaves the audio `None` instead of raising; when both return, the audio is the speech payload, or `None` when reading the payload raises |
| Agent.SpeechPayload | backend/agent.py:172-177 | the payload is the inline bytes of the first part of the first candidate whenever they exist; reading raises exactly when that candidate has no content or its inline data has no bytes, and is `None` otherwise |
| Agent.NewsDeliversAudio | backend/agent.py:116-182 | when the article, summary and speech calls return and the speech carries bytes, NEWS replies with the article, its web citations and exactly those bytes |
| Agent.NewsInterests | backend/agent.py:123 | a falsy profile shows "一般"; otherwise a missing key shows "[]", `None` shows "None", and a list shows its `repr` |
| Agent.NewsInterestsDefault | backend/agent.py:123 | a missing `interests` key shows the same as an empty list |
| Agent.PyListRepr | backend/agent.py:123 | an empty list shows "[]", a one-item list its item's `repr` in brackets, and every result is bracketed |
| Agent.PyListReprAppend | backend/agent.py:123 | the items of a concatenation appear in order, separated by ", " |
| Agent.TransactionsText | backend/agent.py:186-211 | the prompt embeds the warehouse rows when the query returns, and the serialized mock transactions when it raises |
| Agent.ChunksOf | backend/agent.py:59-61 | the chunks of the first candidate's grounding metadata are read; no candidate, no metadata or no chunk list gives no chunks |
| Agent.AnalystReply | backend/agent.py:245-253 | a JSON object gives `analysis` (default "解析できませんでした") and `chart_data` (default []); undecodable text is returned raw with no chart data; a missing text or a non-object JSON value raises |
| Agent.ParseAgentType | backend/agent.py:47-255 | exactly the four names GENERAL, SUPPORT, NEWS, ANALYST are recognised, each as the agent it names |
| Agent.ParseAgentTypeName | backend/agent.py:47-255 | every agent type the front end sends is recognised as itself |
| Agent.GenerateResponse | backend/agent.py:43-260 | an unknown type gives exactly {"text": "不明なエージェントタイプです。"}; a strategy that raises gives exactly {"text": "申し訳ありません。エラーが発生しました。"}; otherwise the strategy's reply |
| Agent.FirstCallFailure | backend/agent.py:258-260 | for every agent, a failing first model call yields the apology alone, with no citations, audio or chart |
| Agent.SearchAgentsReply | backend/agent.py:46-114 | GENERAL and SUPPORT reply with the model text and the citations of their own source field (web / retrieved context) with their own placeholder |
| Agent.NewsDegradesToTextOnly | backend/agent.py:116-182 | once the article call succeeds, NEWS returns the article text and web citations whatever happens later, and `audioBase64` is `None` when the summary fails |
| Agent.AnalystOutcomes | backend/agent.py:184-253 | ANALYST end to end: object JSON → analysis and chart data with defaults, non-JSON → raw text, other JSON → the apology |
| Agent.EmptyProfileLikeNone | backend/agent.py:28-30 | no profile and an empty profile dict render no context and build identical requests for every agent |
| Audio.Decode | services/audioUtils.ts:2-10 | one byte per code unit; byte i is code unit i modulo 256, which is the code unit itself for `atob` output |
| Audio.Int16 | services/audioUtils.ts:22 | the sample is in [-32768, 32768) and is the 16-bit word `lo + 256*hi` read in two's complement |
| Audio.Int16OfBytes | services/audioUtils.ts:22 | reading a sample's little-endian bytes gives the sample back |
| Audio.BytesOfInt16 | services/audioUtils.ts:22 | writing a read sample gives back the two bytes it came from |
| Audio.Int16View | services/audioUtils.ts:22-26 | the view has byte count / 2 frames, every one a 16-bit signed sample |
| Audio.NormalizeRange | services/audioUtils.ts:31-34 | every output value lies in [-1, 1) |
| Audio.NormalizeInverse | services/audioUtils.ts:33 | multiplying an output value by 32768 recovers the sample exactly |
| Audio.NormalizeMonotone | services/audioUtils.ts:31-34 | scaling preserves order and sign, and only silence maps to 0 |
| Audio.DecodeAudioData | services/audioUtils.ts:13-37 | an odd byte count fails if and only if it is odd, an empty payload fails if and only if it is empty; otherwise one channel at the given rate with byte count / 2 values, value i being int16(bytes 2i, 2i+1) / 32768 |
| Strings.TrimEmptyIffAllSpace | components/MarkdownRenderer.tsx:14 | `trim` yields "" if and only if every character is JavaScript whitespace |
| Strings.Split | components/MarkdownRenderer.tsx:9 | a split has at least one piece and no piece holds the separator |
| Strings.JoinSplit | components/MarkdownRenderer.tsx:9 | joining the lines with "\n" restores the content |
| Strings.SplitJoin | components/MarkdownRenderer.tsx:9 | splitting a join of newline-free lines gives the lines back |
| Strings.JoinAppend | backend/agent.py:31 | joining two lists is joining each with the separator between |
| Strings.IndexFrom | components/MarkdownRenderer.tsx:19-25 | finds the leftmost occurrence of the pattern at or after the start, or reports that none exists |
| Strings.ReplacePrefix | components/MarkdownRenderer.tsx:19-25 | `replace(prefix, '')` on a line that starts with the prefix removes exactly that prefix |
| Types.AgentTypeName | types.ts:1-6 | every agent travels under one of the four known names |
| Types.AgentTypeNameInjective | types.ts:1-6 | distinct agents travel under distinct names |
| Markdown.CloseFrom | components/MarkdownRenderer.tsx:46 | the non-greedy `.*?\*\*` ends at the first `**`, with no line terminator before it |
| Markdown.CloseFromComplete | components/MarkdownRenderer.tsx:46 | whenever a close exists the search finds exactly it |
| Markdown.MatchAtComplete | components/MarkdownRenderer.tsx:46 | a match at a position is unique and always found |
| Markdown.SplitBoldConcat | components/MarkdownRenderer.tsx:46 | concatenating the split pieces reconstructs the text |
| Markdown.SplitBoldShape | components/MarkdownRenderer.tsx:46 | pieces alternate unmatched text (containing no match at all) and whole matches (with no `**` strictly inside); there is an odd number of them |
| Markdown.SplitFromLeftmost | components/MarkdownRenderer.tsx:46 | the scan from any position yields pieces in which no match starts inside an unmatched piece, and each match piece is the match at the first position after it |
| Markdown.LeftmostIsSplit | components/MarkdownRenderer.tsx:46 | any sequence of pieces with that leftmost property is exactly what the scan returns |
| Markdown.SplitBoldLeftmost | components/MarkdownRenderer.tsx:46 | the pieces of `split` are the leftmost-match split of the text, and no other sequence of pieces is |
| Markdown.SplitBoldFirstMatchWins | components/MarkdownRenderer.tsx:46 | "**a**b**" splits as "", "**a**", "b**": the first `**` pairs with the nearest closing one and the trailing text stays plain |
| Markdown.SliceInner | components/MarkdownRenderer.tsx:49 | `slice(2, -2)` drops two characters from each end, and is empty for four characters or fewer |
| Markdown.ShowPiece | components/MarkdownRenderer.tsx:47-51 | a piece is bold if and only if it starts and ends with `**`; bold text is the piece without those delimiters, plain text is the piece |
| Markdown.ParseBold | components/MarkdownRenderer.tsx:45-53 | one run per piece; every captured piece is shown bold as its inner text; an unmatched piece is shown bold exactly when it still begins and ends with `**` (with `slice(2, -2)` of it as text), and otherwise as itself |
| Markdown.ParseBoldRoundTrip | components/MarkdownRenderer.tsx:45-53 | writing the runs back as markup restores the text, unless an unmatched piece is a lone `**`-delimited fragment |
| Markdown.ParseBoldExamples | components/MarkdownRenderer.tsx:45-53 | "a\*\*b\*\*c" shows a, bold b, c; a lone "\*\*" shows as empty bold text |
| Markdown.ParseBoldTripleStar | components/MarkdownRenderer.tsx:45-53 | "\*\*\*" has no match and still shows as empty bold text |
| Markdown.ParseBoldAcrossLineBreak | components/MarkdownRenderer.tsx:45-53 | "\*\*", line break, "\*\*" has no match, because `.` stops at the line break, and shows the line break in bold |
| Markdown.StripBullet | components/MarkdownRenderer.tsx:33 | the marker and one whitespace character are removed only at column 0 |
| Markdown.StripHeading | components/MarkdownRenderer.tsx:18-25 | `replace` of a heading prefix on a line that opens with it leaves exactly the text after the prefix |
| Markdown.ClassifyLine | components/MarkdownRenderer.tsx:13-38 | spacer if and only if the line is all whitespace; h4/h3/h2 if and only if the untrimmed line starts with "### "/"## "/"# " in that precedence, with the prefix removed; otherwise bullet if and only if the trimmed line starts with "- " or "* ", and paragraph in every remaining case |
| Markdown.HeadingNotBlank | components/MarkdownRenderer.tsx:13-24 | a line that opens with "# ", "## " or "### " is never a spacer and always renders as a heading |
| Markdown.Render | components/MarkdownRenderer.tsx:5-42 | empty content renders nothing; otherwise one block per line, in order |
| Markdown.RenderLines | components/MarkdownRenderer.tsx:9-13 | content built from lines renders exactly those lines' blocks |
| ProfileEditor.InitialProfile | components/UserProfileModal.tsx:13-18 | the given profile, or all-empty fields and no interests |
| ProfileEditor.Remove | components/UserProfileModal.tsx:24 | the filter removes every occurrence and keeps every other entry |
| ProfileEditor.RemoveAppend | components/UserProfileModal.tsx:24 | the filter keeps the survivors' relative order |
| ProfileEditor.RemoveLength | components/UserProfileModal.tsx:24 | the filter shortens the list by exactly the number of occurrences |
| ProfileEditor.ToggleInterest | components/UserProfileModal.tsx:20-29 | membership of the toggled interest flips, every other interest is unaffected, an absent interest is appended at the end, a present one is filtered out with the rest left in their order (`Remove`), and the other fields are unchanged |
| ProfileEditor.ToggleTwiceRestores | components/UserProfileModal.tsx:20-29 | toggling an absent interest twice restores the profile |
| ProfileEditor.ToggleTwiceMovesToEnd | components/UserProfileModal.tsx:20-29 | toggling a present interest twice keeps the same interests, with that one moved to the end |
| ProfileEditor.ToggleKeepsNoDuplicates | components/UserProfileModal.tsx:20-29 | a duplicate-free list stays duplicate-free |
| ProfileEditor.SetAgeGroup | components/UserProfileModal.tsx:57 | the age select writes its field and nothing else |
| ProfileEditor.SetPrefecture | components/UserProfileModal.tsx:70 | the prefecture select writes its field and nothing else |
| ProfileEditor.SetOccupation | components/UserProfileModal.tsx:83 | the occupation select writes its field and nothing else |
| ProfileEditor.ApplyKeepsValid | components/UserProfileModal.tsx:55-100 | choosing any offered option keeps every field "" or a catalog entry, and the interests distinct catalog entries |
| ProfileEditor.SaveValid | components/UserProfileModal.tsx:13-34 | starting without a profile, whatever is saved after any edits is valid |
| Chat.InitWf | components/ChatInterface.tsx:14-25 | the session opens with GENERAL, exactly the welcome message, empty input, not loading, dropdown closed |
| Chat.Find | components/ChatInterface.tsx:30 | `find` returns the first entry with the requested id, and fails if and only if there is none |
| Chat.Lookup | components/ChatInterface.tsx:30 | the active agent is the first entry with the requested id when one exists, and the first entry otherwise |
| Chat.ActiveAgentFound | components/ChatInterface.tsx:30 | every agent type has an entry, so the header always shows the active agent |
| Chat.Submit | components/ChatInterface.tsx:40-54 | blank input or a request in flight changes nothing and sends nothing; otherwise one user message with the untrimmed input is appended, the input is cleared, loading starts, and the active agent receives the input |
| Chat.SubmitBlank | components/ChatInterface.tsx:41 | an idle send is refused if and only if the input is all whitespace |
| Chat.Receive | components/ChatInterface.tsx:56-68 | exactly one model message with the response's text, citations and buffer is appended to the current history, its playback data is the buffer's first channel, and loading ends; nothing else changes |
| Chat.SelectAgent | components/ChatInterface.tsx:99-112 | the agent becomes active, the dropdown closes and the history is reset to the welcome message alone |
| Chat.ToggleDropdown | components/ChatInterface.tsx:127 | the header button flips the dropdown and nothing else |
| Chat.CloseDropdown | components/ChatInterface.tsx:145 | the backdrop closes the dropdown and nothing else |
| Chat.SetInput | components/ChatInterface.tsx:240 | typing replaces the input and nothing else |
| Chat.KeyDown | components/ChatInterface.tsx:71-76 | Enter without an active composition sends; any other key, or Enter while composing, does nothing |
| Chat.ComposingNeverSends | components/ChatInterface.tsx:73 | a key pressed during IME composition never sends |
| Chat.StepWf | components/ChatInterface.tsx:40-112 | every handler keeps the welcome message at the head of the history |
| Chat.RunWf | components/ChatInterface.tsx:40-112 | any sequence of events from a well-formed state keeps the welcome message at the head |
| Chat.SendThenReceive | components/ChatInterface.tsx:40-69 | a send and its reply, with or without audio, add exactly the question then the answer, and leave the session idle |
| Chat.NoDoubleSend | components/ChatInterface.tsx:41-52 | while a request is in flight a second send does nothing |
| Chat.SwitchDuringLoading | components/ChatInterface.tsx:50-112 | switching agents mid-request does not cancel it: the late reply, with or without audio, follows the new welcome message |

## Left out

- The model, search and warehouse services are parameters (`Agent.Services`). This covers `client.models.generate_content`, Vertex AI Search and BigQuery, along with the SQL query and the row serialization. The model does not say what they return.
- `json.loads` and `json.dumps` are not modelled. `json.loads` is the `parseJson` parameter. The mock-transaction fallback is the literal that `json.dumps(..., ensure_ascii=False, indent=2)` produces.
- `base64.b64encode` in the backend is not modelled: the reply carries the speech bytes. `atob` in the front end is not modelled either: `Audio.Decode` takes its output, a string of code units.
- Logging (`print`, `console`) and the `async` scheduling are left out. Send and receive are two separate transitions.
- Message ids, timestamps, `isError` and `Date.now()` are left out.
- The Web Audio objects are left out: `AudioContext`, `createBuffer`, `playAudio`, `playAudioBuffer` and the `isPlaying` state. So is the browser's rejection of a sample rate it does not support. The model keeps the sample sequence.
- Audio.DecodeAudioData: the `Float32Array` store is modelled as an exact real. Every value `s / 32768` is exactly representable in single precision, so nothing is lost.
- Agent.PyStrRepr: escapes only backslash, the chosen quote, and line feed, carriage return and tab. Python also writes other non-printable characters as `\x`, `\u` or `\U` escapes; the model leaves them as they are.
- Profile dict values are strings or `None`, and `interests` is a list of strings or `None`. A value of another type can make `", ".join` raise before the error boundary. That case is not modelled.
- A missing `content` or missing `data` in the speech response makes the backend raise an `AttributeError` or `TypeError`; the model has `Agent.SpeechPayload` raise in those cases without naming the exception, since the handler around it catches every exception alike.
- The JSX, the styling and the grounding-source list markup are not modelled. `Markdown.Block` stands for what each line renders as.
- backend/main.py, backend/test_audio.py and services/geminiService.ts are not modelled; they are HTTP plumbing. This includes the history-slot argument at components/ChatInterface.tsx:54.
- App.tsx, GenesisDashboard.tsx and ChartComponent.tsx are not modelled.
- Of constants.ts, only the `AGENTS` entries and the profile catalogs are modelled. The front-end mock transactions are not used by the modelled code.
- Markdown.ParseBoldRoundTrip: holds only when no unmatched piece begins and ends with `**`. A lone `**` or `***` is shown as bold text with its asterisks gone, so the markup cannot be restored from the runs (see `Markdown.ParseBoldExamples`).

=== FILE: agent.dfy ===
/**
 * The backend agent pipeline of backend/agent.py: the profile-context
 * formatter, the citation extraction shared by three strategies, the four
 * strategies with the requests they send, and the `generate_response`
 * dispatcher with its single catch-all error boundary.
 *
 * The generative model, the search data store and BigQuery are not modelled:
 * they are a `Services` value whose `generate` function maps each request to
 * either a response or a raised exception, so that dispatch is a pure, total
 * function of its inputs.
 *
 * The prompt texts are written out character for character. Each long one is
 * spelled as a concatenation of short literals, broken after every "\n" and
 * otherwise after a punctuation mark, a space or a Japanese phrase particle.
 * The pieces carry no meaning of their own: short literals only keep the
 * verifier's reasoning about the whole text cheap.
 */
module Agent {
  import opened Base
  import opened Strings
  import opened Types

  // ---------------------------------------------------------------------
  // The profile dict and `format_profile_context`
  // ---------------------------------------------------------------------

  /** One key of a Python dict: missing, or present with a value. */
  datatype Entry<+T> = Absent | Present(value: T)

  /** The profile dict the HTTP layer hands over. Each string value may be
      `None`; `otherKeys` counts the keys this module never reads. */
  datatype ProfileDict = ProfileDict(
    ageGroup: Entry<Option<string>>,
    prefecture: Entry<Option<string>>,
    occupation: Entry<Option<string>>,
    interests: Entry<Option<seq<string>>>,
    otherKeys: nat)

  /** Python truthiness of the optional profile: `None` and `{}` are false. */
  predicate Truthy(profile: Option<ProfileDict>) {
    && profile.Some?
    && (|| profile.value.ageGroup.Present?
        || profile.value.prefecture.Present?
        || profile.value.occupation.Present?
        || profile.value.interests.Present?
        || profile.value.otherKeys > 0)
  }

  const Unset: string := "未設定"

  /** How an f-string renders a `str` or `None`. */
  function Interpolate(v: Option<string>): string {
    match v
    case None => "None"
    case Some(s) => s
  }

  /** `profile.get(key, "未設定")` rendered in the template: the placeholder
      stands in only for a missing key. */
  function FieldText(e: Entry<Option<string>>): string {
    match e
    case Absent => Unset
    case Present(v) => Interpolate(v)
  }

  /** The placeholder appears for a missing key, and for a present key only
      when that key holds the placeholder text itself. */
  lemma FieldPlaceholder(e: Entry<Option<string>>)
    ensures FieldText(e) == Unset <==> e.Absent? || e == Present(Some(Unset))
    ensures e == Present(None) ==> FieldText(e) == "None"
    ensures e == Present(Some("")) ==> FieldText(e) == ""
  {
  }

  /** The interests line: the list joined with ", " when it is a non-empty
      list, the placeholder when it is missing, `None` or empty. */
  function InterestsText(e: Entry<Option<seq<string>>>): string {
    if e.Present? && e.value.Some? && |e.value.value| > 0 then Join(e.value.value, ", ") else Unset
  }

  /** The interests line lists a non-empty list's entries in order, a
      ", " between neighbours; a missing, `None` or empty list shows the
      placeholder. */
  lemma InterestsInOrder(a: seq<string>, b: seq<string>)
    requires |a| >= 1 && |b| >= 1
    ensures InterestsText(Present(Some(a + b))) == InterestsText(Present(Some(a))) + ", " + InterestsText(Present(Some(b)))
    ensures InterestsText(Present(Some([a[0]]))) == a[0]
    ensures InterestsText(Absent) == Unset && InterestsText(Present(None)) == Unset && InterestsText(Present(Some([]))) == Unset
  {
    JoinAppend(a, b, ", ");
  }

  /** The four values the template interpolates. */
  datatype ProfileFields = ProfileFields(age: string, prefecture: string, occupation: string, interests: string)

  function Fields(p: ProfileDict): ProfileFields {
    ProfileFields(FieldText(p.ageGroup), FieldText(p.prefecture), FieldText(p.occupation), InterestsText(p.interests))
  }

  const AgeLabel: string := "    - 年齢: "
  const PrefectureLabel: string := "    - 居住地: "
  const OccupationLabel: string := "    - 職業: "
  const InterestsLabel: string := "    - 興味・関心: "
  const ContextHeader: string := "    [ユーザープロファイル情報]"
  const ContextInstruction1: string :=
    "    回答はこのプロファイル情報を考慮して" + "パーソナライズしてください。"
  const ContextInstruction2: string :=
    "    例えば、年齢層に" + "合わせた言葉遣いや、" + "興味関心に基づいたトピックの選定、" + "職業に関連するアドバイスなどを" + "含めてください。"

  /** The lines of the triple-quoted template, which opens and closes with a line break. */
  function ContextLines(f: ProfileFields): seq<string> {
    [ "", ContextHeader,
      AgeLabel + f.age, PrefectureLabel + f.prefecture, OccupationLabel + f.occupation,
      InterestsLabel + f.interests,
      "    ", ContextInstruction1, ContextInstruction2, "    " ]
  }

  /** `format_profile_context`: empty exactly for a falsy profile. */
  function FormatProfileContext(profile: Option<ProfileDict>): (r: string)
    ensures r == "" <==> !Truthy(profile)
  {
    if !Truthy(profile) then ""
    else
      var lines := ContextLines(Fields(profile.value));
      assert Join(lines, "\n") == lines[0] + "\n" + Join(lines[1..], "\n");
      assert Join(lines[1..], "\n") == ContextHeader + "\n" + Join(lines[2..], "\n");
      Join(lines, "\n")
  }

  /** Reads the four interpolated values back out of a rendered context. */
  function ParseProfileContext(r: string): Option<ProfileFields> {
    var lines := Split(r, '\n');
    if && |lines| == 10 && lines[0] == "" && lines[1] == ContextHeader
       && StartsWith(lines[2], AgeLabel) && StartsWith(lines[3], PrefectureLabel)
       && StartsWith(lines[4], OccupationLabel) && StartsWith(lines[5], InterestsLabel)
       && lines[6] == "    " && lines[7] == ContextInstruction1
       && lines[8] == ContextInstruction2 && lines[9] == "    "
    then Some(ProfileFields(lines[2][|AgeLabel|..], lines[3][|PrefectureLabel|..],
                            lines[4][|OccupationLabel|..], lines[5][|InterestsLabel|..]))
    else None
  }

  /** The rendered context carries exactly the profile's values: reading it
      back line by line recovers them, as long as no value spans lines. A
      falsy profile renders nothing to read. */
  lemma ProfileContextRoundTrip(profile: Option<ProfileDict>)
    requires Truthy(profile) ==> var f := Fields(profile.value);
      '\n' !in f.age && '\n' !in f.prefecture && '\n' !in f.occupation && '\n' !in f.interests
    ensures Truthy(profile) ==> ParseProfileContext(FormatProfileContext(profile)) == Some(Fields(profile.value))
    ensures !Truthy(profile) ==> ParseProfileContext(FormatProfileContext(profile)) == None
  {
    if Truthy(profile) {
      var f := Fields(profile.value);
      var lines := ContextLines(f);
      forall i | 0 <= i < |lines| ensures '\n' !in lines[i] {
        LabelledLine(i, lines[i], f);
      }
      SplitJoin(lines, '\n');
      assert (AgeLabel + f.age)[|AgeLabel|..] == f.age;
      assert (PrefectureLabel + f.prefecture)[|PrefectureLabel|..] == f.prefecture;
      assert (OccupationLabel + f.occupation)[|OccupationLabel|..] == f.occupation;
      assert (InterestsLabel + f.interests)[|InterestsLabel|..] == f.interests;
    } else {
      assert Split("", '\n') == [""];
    }
  }

  lemma LabelledLine(i: nat, line: string, f: ProfileFields)
    requires i < 10 && line == ContextLines(f)[i]
    requires '\n' !in f.age && '\n' !in f.prefecture && '\n' !in f.occupation && '\n' !in f.interests
    ensures '\n' !in line
  {
    FixedLinesUnbroken();
  }

  /** None of the template's fixed text contains a line break. */
  lemma FixedLinesUnbroken()
    ensures '\n' !in ContextHeader && '\n' !in ContextInstruction1 && '\n' !in ContextInstruction2
    ensures '\n' !in AgeLabel && '\n' !in PrefectureLabel && '\n' !in OccupationLabel && '\n' !in InterestsLabel
  {
    InstructionUnbroken();
    assert '\n' !in ContextHeader;
    assert '\n' !in ContextInstruction1;
  }

  lemma InstructionUnbroken()
    ensures '\n' !in ContextInstruction2
  {
    assert '\n' !in "    例えば、年齢層に";
    assert '\n' !in "合わせた言葉遣いや、";
    assert '\n' !in "興味関心に基づいたトピックの選定、";
    assert '\n' !in "職業に関連するアドバイスなどを";
    assert '\n' !in "含めてください。";
  }

  // ---------------------------------------------------------------------
  // Model responses and citation extraction
  // ---------------------------------------------------------------------

  /** A grounding source: `chunk.web` or `chunk.retrieved_context`. */
  datatype SourceRef = SourceRef(title: Option<string>, uri: Option<string>)
  datatype Chunk = Chunk(web: Option<SourceRef>, retrievedContext: Option<SourceRef>)
  datatype GroundingMetadata = GroundingMetadata(groundingChunks: Option<seq<Chunk>>)
  /** Inline binary data of a response part; its bytes may be missing. */
  datatype Blob = Blob(data: Option<seq<byte>>)
  datatype Part = Part(inlineData: Option<Blob>)
  datatype Content = Content(parts: Option<seq<Part>>)
  datatype Candidate = Candidate(content: Option<Content>, groundingMetadata: Option<GroundingMetadata>)
  /** A model response: its `.text` accessor and its candidates. */
  datatype ModelResponse = ModelResponse(text: Option<string>, candidates: Option<seq<Candidate>>)

  /** Which source field a strategy reads. */
  datatype SourceKind = Web | RetrievedContext

  const GeneralPlaceholder: string := "参照元"
  const SupportPlaceholder: string := "サポート文書"
  const NewsPlaceholder: string := "ニュースソース"

  function SourceOf(c: Chunk, kind: SourceKind): Option<SourceRef> {
    match kind
    case Web => c.web
    case RetrievedContext => c.retrievedContext
  }

  /** `chunk.web and chunk.web.uri`: the source exists and its uri is neither
      `None` nor empty. */
  predicate Citable(c: Chunk, kind: SourceKind) {
    SourceOf(c, kind).Some? && SourceOf(c, kind).value.uri.Some? && SourceOf(c, kind).value.uri.value != ""
  }

  /** `title or placeholder`. */
  function TitleOr(title: Option<string>, placeholder: string): (r: string)
    ensures title.Some? && title.value != "" ==> r == title.value
    ensures title.None? || title.value == "" ==> r == placeholder
  {
    if title.Some? && title.value != "" then title.value else placeholder
  }

  function Cite(c: Chunk, kind: SourceKind, placeholder: string): (g: GroundingUrl)
    requires Citable(c, kind)
  {
    GroundingUrl(TitleOr(SourceOf(c, kind).value.title, placeholder), SourceOf(c, kind).value.uri.value)
  }

  /** The loop over the chunks. */
  function CiteAll(chunks: seq<Chunk>, kind: SourceKind, placeholder: string): (r: seq<GroundingUrl>)
    ensures |r| <= |chunks|
    ensures forall i :: 0 <= i < |r| ==> r[i].uri != ""
    ensures placeholder != "" ==> forall i :: 0 <= i < |r| ==> r[i].title != ""
  {
    if |chunks| == 0 then []
    else
      var rest := CiteAll(chunks[1..], kind, placeholder);
      if Citable(chunks[0], kind) then [Cite(chunks[0], kind, placeholder)] + rest else rest
  }

  /** Citation extraction commutes with concatenation: every chunk contributes
      on its own, in its original position. */
  lemma {:induction false} CiteAllAppend(a: seq<Chunk>, b: seq<Chunk>, kind: SourceKind, placeholder: string)
    ensures CiteAll(a + b, kind, placeholder) == CiteAll(a, kind, placeholder) + CiteAll(b, kind, placeholder)
  {
    if |a| == 0 {
      assert a + b == b;
    } else {
      assert (a + b)[1..] == a[1..] + b;
      CiteAllAppend(a[1..], b, kind, placeholder);
    }
  }

  /** A single chunk contributes one citation if and only if it is citable. */
  lemma CiteOne(c: Chunk, kind: SourceKind, placeholder: string)
    ensures Citable(c, kind) ==> CiteAll([c], kind, placeholder) == [Cite(c, kind, placeholder)]
    ensures !Citable(c, kind) ==> CiteAll([c], kind, placeholder) == []
  {
    assert [c][1..] == [];
  }

  function CountCitable(chunks: seq<Chunk>, kind: SourceKind): nat {
    if |chunks| == 0 then 0 else (if Citable(chunks[0], kind) then 1 else 0) + CountCitable(chunks[1..], kind)
  }

  /** Exactly the citable chunks are kept. */
  lemma {:induction false} CiteAllCount(chunks: seq<Chunk>, kind: SourceKind, placeholder: string)
    ensures |CiteAll(chunks, kind, placeholder)| == CountCitable(chunks, kind)
  {
    if |chunks| > 0 {
      CiteAllCount(chunks[1..], kind, placeholder);
    }
  }

  /** The guards around the loop: no candidates, no grounding metadata on the
      first candidate, or no chunks all mean there is nothing to cite. */
  function ChunksOf(resp: ModelResponse): (r: seq<Chunk>)
    ensures resp.candidates.None? || |resp.candidates.value| == 0 ==> r == []
    ensures resp.candidates.Some? && |resp.candidates.value| > 0 ==>
              var meta := resp.candidates.value[0].groundingMetadata;
              && (meta.None? || meta.value.groundingChunks.None? ==> r == [])
              && (meta.Some? && meta.value.groundingChunks.Some? ==> r == meta.value.groundingChunks.value)
  {
    if resp.candidates.Some? && |resp.candidates.value| > 0
       && resp.candidates.value[0].groundingMetadata.Some?
       && resp.candidates.value[0].groundingMetadata.value.groundingChunks.Some?
    then resp.candidates.value[0].groundingMetadata.value.groundingChunks.value
    else []
  }

  function ExtractCitations(resp: ModelResponse, kind: SourceKind, placeholder: string): seq<GroundingUrl> {
    CiteAll(ChunksOf(resp), kind, placeholder)
  }

  /** A concrete web grounding list: a chunk without a title gets the
      placeholder, and a chunk with an empty uri is dropped. */
  lemma CitationExample()
    ensures CiteAll([ Chunk(Some(SourceRef(None, Some("https://a"))), None),
                      Chunk(Some(SourceRef(Some("B"), Some(""))), None),
                      Chunk(Some(SourceRef(Some("C"), Some("https://c"))), None) ], Web, GeneralPlaceholder)
            == [GroundingUrl(GeneralPlaceholder, "https://a"), GroundingUrl("C", "https://c")]
  {
    var a := Chunk(Some(SourceRef(None, Some("https://a"))), None);
    var b := Chunk(Some(SourceRef(Some("B"), Some(""))), None);
    var c := Chunk(Some(SourceRef(Some("C"), Some("https://c"))), None);
    assert [a, b, c] == [a] + [b] + [c];
    CiteAllAppend([a] + [b], [c], Web, GeneralPlaceholder);
    CiteAllAppend([a], [b], Web, GeneralPlaceholder);
    CiteOne(a, Web, GeneralPlaceholder);
    CiteOne(b, Web, GeneralPlaceholder);
    CiteOne(c, Web, GeneralPlaceholder);
  }

  // ---------------------------------------------------------------------
  // Requests, outcomes and replies
  // ---------------------------------------------------------------------

  datatype Tool = GoogleSearch | VertexAiSearch(datastore: string)

  /** The configuration a request carries; a request sent without one has
      every option unset. */
  datatype GenerationConfig = GenerationConfig(
    tools: seq<Tool>,
    systemInstruction: Option<string>,
    temperature: Option<real>,
    responseMimeType: Option<string>,
    responseModalities: seq<string>,
    voiceName: Option<string>)

  const NoConfig: GenerationConfig := GenerationConfig([], None, None, None, [], None)

  datatype Request = Request(model: string, contents: Option<string>, config: GenerationConfig)

  /** A call into a service either returns or raises. */
  datatype Call<+T> = Returned(value: T) | Raised

  /** A JSON value as `json.loads` produces it. */
  datatype Json =
    | JNull
    | JBool(b: bool)
    | JNumber(n: real)
    | JString(s: string)
    | JArray(items: seq<Json>)
    | JObject(members: map<string, Json>)

  /** Everything outside this module that a strategy consults: the model
      (one outcome per request), the transaction warehouse (the serialized
      rows, or an exception), and `json.loads` (`None` for a decode error). */
  datatype Services = Services(
    generate: Request -> Call<ModelResponse>,
    warehouse: Call<string>,
    parseJson: string -> Option<Json>)

  /** The dict `generate_response` returns. `audioBase64` is absent, `None`,
      or the speech bytes (sent base64-encoded); `chartData` is absent or the
      chart value. */
  datatype Reply = Reply(
    text: Json,
    groundingUrls: Option<seq<GroundingUrl>>,
    audioBase64: Option<Option<seq<byte>>>,
    chartData: Option<Json>)

  function TextReply(text: string): Reply {
    Reply(JString(text), None, None, None)
  }

  /** The JSON value of `response.text`. */
  function TextValue(t: Option<string>): Json {
    match t
    case None => JNull
    case Some(s) => JString(s)
  }

  const ModelName: string := "gemini-2.0-flash-exp"
  const UnknownAgentText: string := "不明なエージェントタイプです。"
  const ErrorText: string := "申し訳ありません。エラーが発生しました。"
  const AnalysisDefault: string := "解析できませんでした"

  // ---------------------------------------------------------------------
  // GENERAL
  // ---------------------------------------------------------------------

  const GeneralPersona: string :=
    "You are a helpful general " +
    "concierge for a banking " +
    "app. You can answer any " +
    "questions using Google Search. " +
    "Always answer in Japanese."

  function GeneralRequest(message: string, context: string): Request {
    Request(ModelName, Some(message),
      NoConfig.(tools := [GoogleSearch], systemInstruction := Some(GeneralPersona + "\n" + context)))
  }

  function General(message: string, context: string, env: Services): Call<Reply> {
    match env.generate(GeneralRequest(message, context))
    case Raised => Raised
    case Returned(resp) =>
      Returned(Reply(TextValue(resp.text), Some(ExtractCitations(resp, Web, GeneralPlaceholder)), None, None))
  }

  // ---------------------------------------------------------------------
  // SUPPORT
  // ---------------------------------------------------------------------

  const SupportDatastore: string :=
    "projects/bank-moc/locations/global/" +
    "collections/default_collection/" +
    "dataStores/bank-moc-faq_1765851574533"

  /** The system prompt up to the context; the template writes `${...}`, so a
      literal `$` precedes the context. */
  const SupportPromptHead: string :=
    "\n" +
    "            あなたはGENESIS " +
    "APPの厳格なカスタマーサポートエージェントです。" +
    "\n" +
    "            提供されたツール（Vertex " +
    "AI Search）を使用して情報を検索し、その情報に基づいて質問に答えてください。" +
    "\n" +
    "            \n" +
    "            $"
  const SupportPromptTail: string :=
    "\n" +
    "            \n" +
    "            ルール:\n" +
    "            1. 検索結果に基づいて、" +
    "丁寧な日本語で答えてください。\n" +
    "            2. 検索結果に関連情報がない場合は、" +
    "「申し訳ありませんが、その件に関する情報は持ち合わせておりません。" +
    "」と答えてください。\n" +
    "            3. 検索結果以外の一般知識や幻覚を含めないでください。" +
    "\n" +
    "            "

  function SupportRequest(message: string, context: string): Request {
    Request(ModelName, Some(message),
      NoConfig.(tools := [VertexAiSearch(SupportDatastore)],
                systemInstruction := Some(SupportPromptHead + context + SupportPromptTail),
                temperature := Some(0.1)))
  }

  function Support(message: string, context: string, env: Services): Call<Reply> {
    match env.generate(SupportRequest(message, context))
    case Raised => Raised
    case Returned(resp) =>
      Returned(Reply(TextValue(resp.text), Some(ExtractCitations(resp, RetrievedContext, SupportPlaceholder)), None, None))
  }

  // ---------------------------------------------------------------------
  // NEWS
  // ---------------------------------------------------------------------

  /** Python's `repr` of a string: single quotes unless the text holds a single
      quote and no double quote; backslash, the chosen quote, and line feed,
      carriage return and tab are escaped. */
  function PyStrRepr(s: string): (r: string)
    ensures '\'' !in s ==> r == "'" + Escape(s, '\'') + "'"
    ensures '\'' in s && '"' !in s ==> r == "\"" + Escape(s, '"') + "\""
    ensures '\'' in s && '"' in s ==> r == "'" + Escape(s, '\'') + "'"
  {
    var q := if '\'' in s && '"' !in s then '"' else '\'';
    [q] + Escape(s, q) + [q]
  }

  /** `repr("it's")` is `"it's"`: a single quote alone switches to double quotes. */
  lemma PyStrReprSwitchesQuote()
    ensures PyStrRepr("it's") == "\"it's\""
  {
    var s := "it's";
    assert s[0] == 'i' && s[1] == 't' && s[2] == '\'' && s[3] == 's';
    PyStrReprDoubleQuoted(s);
  }

  /** A text with a single quote, no double quote and nothing else to escape
      comes back verbatim between double quotes. */
  lemma PyStrReprDoubleQuoted(s: string)
    requires '\'' in s && '"' !in s
    requires forall i :: 0 <= i < |s| ==> s[i] != '\\' && s[i] != '\n' && s[i] != '\r' && s[i] != '\t'
    ensures PyStrRepr(s) == "\"" + s + "\""
  {
    assert Escape(s, '"') == s;
  }

  /** `repr('\'"')` is `'\'"'`: with both quotes present the single quote
      stays the delimiter and is escaped. */
  lemma PyStrReprBothQuotes()
    ensures PyStrRepr("'\"") == "'\\'\"'"
  {
    var s := "'\"";
    assert s[0] == '\'' && s[1] == '"';
    assert s[1..] == "\"" && s[1..][1..] == "";
    assert Escape(s[1..], '\'') == "\"";
    assert Escape(s, '\'') == "\\'\"";
  }

  function Escape(s: string, quote: char): (r: string)
    ensures (forall i :: 0 <= i < |s| ==> s[i] != '\\' && s[i] != quote && s[i] != '\n' && s[i] != '\r' && s[i] != '\t') ==> r == s
  {
    if |s| == 0 then ""
    else
      assert s == [s[0]] + s[1..];
      EscapeChar(s[0], quote) + Escape(s[1..], quote)
  }

  /** How `repr` writes one character. */
  function EscapeChar(c: char, quote: char): (e: string)
    ensures 1 <= |e| <= 2
  {
    if c == '\\' then "\\\\" else if c == quote then ['\\', quote]
    else if c == '\n' then "\\n" else if c == '\r' then "\\r" else if c == '\t' then "\\t"
    else [c]
  }

  /** Reads an escaped body back: a backslash and the next character stand
      for one character. */
  function Unescape(t: string): string
  {
    if |t| == 0 then ""
    else if t[0] == '\\' && |t| >= 2 then
      var c := if t[1] == 'n' then '\n' else if t[1] == 'r' then '\r' else if t[1] == 't' then '\t' else t[1];
      [c] + Unescape(t[2..])
    else [t[0]] + Unescape(t[1..])
  }

  /** Each escaped character reads back as itself. */
  lemma UnescapeChar(c: char, quote: char, rest: string)
    requires quote == '\'' || quote == '"'
    ensures Unescape(EscapeChar(c, quote) + rest) == [c] + Unescape(rest)
  {
    var e := EscapeChar(c, quote);
    if |e| == 2 {
      assert (e + rest)[2..] == rest;
    } else {
      assert (e + rest)[1..] == rest;
    }
  }

  /** Escaping loses nothing: the quoted body reads back as the original text. */
  lemma {:induction false} UnescapeEscape(s: string, quote: char)
    requires quote == '\'' || quote == '"'
    ensures Unescape(Escape(s, quote)) == s
  {
    if |s| > 0 {
      UnescapeEscape(s[1..], quote);
      UnescapeChar(s[0], quote, Escape(s[1..], quote));
      assert s == [s[0]] + s[1..];
    }
  }

  /** A string's `repr` is its escaped text between two matching quotes, and
      reading the inside back gives the string. */
  lemma PyStrReprRoundTrip(s: string)
    ensures var r := PyStrRepr(s);
            |r| >= 2 && r[0] == r[|r| - 1] && (r[0] == '\'' || r[0] == '"') && Unescape(r[1..|r| - 1]) == s
  {
    var q := if '\'' in s && '"' !in s then '"' else '\'';
    var r := PyStrRepr(s);
    assert r == [q] + Escape(s, q) + [q];
    assert r[1..|r| - 1] == Escape(s, q);
    UnescapeEscape(s, q);
  }

  /** The `repr` of every item, in order. */
  function Reprs(xs: seq<string>): (r: seq<string>)
    ensures |r| == |xs|
  {
    if |xs| == 0 then [] else [PyStrRepr(xs[0])] + Reprs(xs[1..])
  }

  /** Python's `repr` of a list of strings: the items' `repr`s in list order,
      separated by ", ", between brackets. */
  function PyListRepr(xs: seq<string>): (r: string)
    ensures |xs| == 0 ==> r == "[]"
    ensures |xs| == 1 ==> r == "[" + PyStrRepr(xs[0]) + "]"
    ensures |r| >= 2 && r[0] == '[' && r[|r| - 1] == ']'
  {
    "[" + Join(Reprs(xs), ", ") + "]"
  }

  lemma {:induction false} ReprsAppend(a: seq<string>, b: seq<string>)
    ensures Reprs(a + b) == Reprs(a) + Reprs(b)
  {
    if |a| == 0 {
      assert a + b == b;
    } else {
      assert (a + b)[1..] == a[1..] + b;
      ReprsAppend(a[1..], b);
    }
  }

  /** Two bracketed texts, the first without its closing bracket and the
      second without its opening one, joined by ", ". */
  lemma BracketJoin(ja: string, jb: string)
    ensures var ra, rb := "[" + ja + "]", "[" + jb + "]";
            ra[..|ra| - 1] + ", " + rb[1..] == "[" + (ja + ", " + jb) + "]"
  {
    var ra, rb := "[" + ja + "]", "[" + jb + "]";
    assert ra[..|ra| - 1] == "[" + ja;
    assert rb[1..] == jb + "]";
  }

  /** The list's `repr` shows the items in order: the `repr` of a
      concatenation is the two inner texts joined by ", ". */
  lemma PyListReprAppend(a: seq<string>, b: seq<string>)
    requires |a| >= 1 && |b| >= 1
    ensures var ra, rb := PyListRepr(a), PyListRepr(b);
            PyListRepr(a + b) == ra[..|ra| - 1] + ", " + rb[1..]
  {
    ReprsAppend(a, b);
    JoinAppend(Reprs(a), Reprs(b), ", ");
    BracketJoin(Join(Reprs(a), ", "), Join(Reprs(b), ", "));
  }

  /** `user_profile.get('interests', []) if user_profile else '一般'` rendered. */
  function NewsInterests(profile: Option<ProfileDict>): (r: string)
    ensures !Truthy(profile) ==> r == "一般"
    ensures Truthy(profile) && profile.value.interests.Absent? ==> r == "[]"
    ensures Truthy(profile) && profile.value.interests == Present(None) ==> r == "None"
    ensures Truthy(profile) && profile.value.interests.Present? && profile.value.interests.value.Some? ==>
              r == PyListRepr(profile.value.interests.value.value)
  {
    if !Truthy(profile) then "一般"
    else
      match profile.value.interests
      case Absent => "[]"
      case Present(None) => "None"
      case Present(Some(xs)) => PyListRepr(xs)
  }

  /** A profile without an `interests` key shows the default `[]`, the same
      as one whose interests are an empty list. */
  lemma NewsInterestsDefault(d: ProfileDict)
    requires Truthy(Some(d.(interests := Absent)))
    ensures NewsInterests(Some(d.(interests := Absent))) == NewsInterests(Some(d.(interests := Present(Some([])))))
  {
  }

  const NewsPromptHead: string :=
    "\n" +
    "            今日の株、債券、不動産、" +
    "経済指標に関する最新の金融ニュースを探してください。" +
    "\n" +
    "            これに基づき、包括的な記事（読むのに15分程度かかるボリューム感で、" +
    "このデモ出力用には500〜800文字程度に要約）を日本語で作成してください。" +
    "\n" +
    "            明確な見出しを付けて構成してください。" +
    "\n\n" +
    "            ユーザーの興味関心: "
  const NewsPromptQuery: string :=
    "\n" +
    "            \n" +
    "            ユーザーのクエリ: "
  const PromptIndent: string := "\n            "

  function NewsArticleRequest(message: string, profile: Option<ProfileDict>, context: string): Request {
    Request(ModelName,
      Some(NewsPromptHead + NewsInterests(profile) + PromptIndent + context + NewsPromptQuery + message + PromptIndent),
      NoConfig.(tools := [GoogleSearch]))
  }

  const SummaryPromptHead: string :=
    "以下の記事をリスナー向けに" + "1分程度の短い音声スクリプトとして" + "日本語で要約してください:\n\n"

  function SummaryRequest(article: Option<string>): Request {
    Request(ModelName, Some(SummaryPromptHead + Interpolate(article)), NoConfig)
  }

  const VoiceName: string := "Kore"

  function SpeechRequest(script: Option<string>): Request {
    Request(ModelName, script, NoConfig.(responseModalities := ["AUDIO"], voiceName := Some(VoiceName)))
  }

  /** The speech response carries `bytes` as the inline data of the first
      part of its first candidate. */
  predicate CarriesAudio(tts: ModelResponse, bytes: seq<byte>) {
    && tts.candidates.Some? && |tts.candidates.value| > 0
    && tts.candidates.value[0].content.Some?
    && var parts := tts.candidates.value[0].content.value.parts;
       parts.Some? && |parts.value| > 0 && parts.value[0].inlineData == Some(Blob(Some(bytes)))
  }

  /** The audio of the speech response: `None` when there is no candidate,
      no part or no inline data; raises when the first candidate has no
      content or the inline data has no bytes. */
  function SpeechPayload(tts: ModelResponse): (r: Call<Option<seq<byte>>>)
    ensures r.Returned? && r.value.Some? ==> CarriesAudio(tts, r.value.value)
    ensures forall bytes :: CarriesAudio(tts, bytes) ==> r == Returned(Some(bytes))
    ensures r.Raised? <==>
              && tts.candidates.Some? && |tts.candidates.value| > 0
              && (|| tts.candidates.value[0].content.None?
                  || var parts := tts.candidates.value[0].content.value.parts;
                     parts.Some? && |parts.value| > 0 && parts.value[0].inlineData == Some(Blob(None)))
  {
    if tts.candidates.Some? && |tts.candidates.value| > 0 then
      match tts.candidates.value[0].content
      case None => Raised
      case Some(content) =>
        if content.parts.Some? && |content.parts.value| > 0 then
          match content.parts.value[0].inlineData
          case None => Returned(None)
          case Some(blob) =>
            match blob.data
            case None => Raised
            case Some(bytes) => Returned(Some(bytes))
        else Returned(None)
    else Returned(None)
  }

  /** The summary-then-speech stage inside its own `try`: any exception in it
      leaves the audio `None`. */
  function NewsAudio(article: Option<string>, env: Services): (audio: Option<seq<byte>>)
    ensures env.generate(SummaryRequest(article)).Raised? ==> audio.None?
    ensures (&& env.generate(SummaryRequest(article)).Returned?
             && env.generate(SpeechRequest(env.generate(SummaryRequest(article)).value.text)).Raised?) ==> audio.None?
    ensures (&& env.generate(SummaryRequest(article)).Returned?
             && env.generate(SpeechRequest(env.generate(SummaryRequest(article)).value.text)).Returned?) ==>
              var tts := env.generate(SpeechRequest(env.generate(SummaryRequest(article)).value.text)).value;
              && (SpeechPayload(tts).Returned? ==> audio == SpeechPayload(tts).value)
              && (SpeechPayload(tts).Raised? ==> audio.None?)
  {
    match env.generate(SummaryRequest(article))
    case Raised => None
    case Returned(summary) =>
      match env.generate(SpeechRequest(summary.text))
      case Raised => None
      case Returned(tts) =>
        match SpeechPayload(tts)
        case Raised => None
        case Returned(payload) => payload
  }

  function News(message: string, profile: Option<ProfileDict>, context: string, env: Services): Call<Reply> {
    match env.generate(NewsArticleRequest(message, profile, context))
    case Raised => Raised
    case Returned(article) =>
      Returned(Reply(TextValue(article.text), Some(ExtractCitations(article, Web, NewsPlaceholder)),
                     Some(NewsAudio(article.text, env)), None))
  }

  // ---------------------------------------------------------------------
  // ANALYST
  // ---------------------------------------------------------------------

  /** `json.dumps(MOCK_TRANSACTIONS, ensure_ascii=False, indent=2)`. */
  const MockTransactionsJson: string :=
    "[\n" +
    "  {\n" +
    "    \"id\": \"tx1\",\n" +
    "    \"date\": \"2024-03-01\"," +
    "\n" +
    "    \"description\": \"スーパーマーケットLIFE\"," +
    "\n" +
    "    \"amount\": 5400,\n" +
    "    \"category\": \"食費\"\n" +
    "  },\n" +
    "  {\n" +
    "    \"id\": \"tx2\",\n" +
    "    \"date\": \"2024-03-02\"," +
    "\n" +
    "    \"description\": \"Amazon " +
    "Prime\",\n" +
    "    \"amount\": 600,\n" +
    "    \"category\": \"サブスクリプション\"\n" +
    "  },\n" +
    "  {\n" +
    "    \"id\": \"tx3\",\n" +
    "    \"date\": \"2024-03-03\"," +
    "\n" +
    "    \"description\": \"スターバックス\"," +
    "\n" +
    "    \"amount\": 1200,\n" +
    "    \"category\": \"カフェ\"\n" +
    "  },\n" +
    "  {\n" +
    "    \"id\": \"tx4\",\n" +
    "    \"date\": \"2024-03-05\"," +
    "\n" +
    "    \"description\": \"家賃振込\"," +
    "\n" +
    "    \"amount\": 85000,\n" +
    "    \"category\": \"住居費\"\n" +
    "  },\n" +
    "  {\n" +
    "    \"id\": \"tx5\",\n" +
    "    \"date\": \"2024-03-10\"," +
    "\n" +
    "    \"description\": \"UBER " +
    "EATS\",\n" +
    "    \"amount\": 2800,\n" +
    "    \"category\": \"食費\"\n" +
    "  },\n" +
    "  {\n" +
    "    \"id\": \"tx6\",\n" +
    "    \"date\": \"2024-03-15\"," +
    "\n" +
    "    \"description\": \"給与振込\"," +
    "\n" +
    "    \"amount\": -320000,\n" +
    "    \"category\": \"収入\"\n" +
    "  },\n" +
    "  {\n" +
    "    \"id\": \"tx7\",\n" +
    "    \"date\": \"2024-03-20\"," +
    "\n" +
    "    \"description\": \"ユニクロ\"," +
    "\n" +
    "    \"amount\": 12000,\n" +
    "    \"category\": \"衣類\"\n" +
    "  }\n" +
    "]"

  /** The transactions embedded in the prompt: the warehouse rows, or the
      mock list when the query raises. */
  function TransactionsText(warehouse: Call<string>): (r: string)
    ensures warehouse.Returned? ==> r == warehouse.value
    ensures warehouse.Raised? ==> r == MockTransactionsJson
  {
    match warehouse
    case Returned(rows) => rows
    case Raised => MockTransactionsJson
  }

  const AnalystPromptHead: string :=
    "\n" +
    "            You are a financial " +
    "analyst. Analyze the following " +
    "transaction data.\n" +
    "            \n" +
    "            Output MUST " +
    "be valid JSON with the following " +
    "structure:\n" +
    "            {\n" +
    "                \"analysis\": " +
    "\"Your detailed analysis " +
    "text in Japanese...\",\n" +
    "                \"chart_data\": " +
    "[\n" +
    "                    {\"category\": " +
    "\"Food\", \"amount\": 1000}," +
    "\n" +
    "                    {\"category\": " +
    "\"Transport\", \"amount\": 2000}\n" +
    "                ]\n" +
    "            }\n" +
    "            \n" +
    "            Chart Guidelines:\n" +
    "            - Aggregate " +
    "amounts by category (e.g." +
    ", total 'Food' expense)." +
    "\n" +
    "            - Exclude income " +
    "(positive amounts) if focusing " +
    "on expenses, or separate " +
    "them. \n" +
    "              (Typically " +
    "for spending analysis, filter " +
    "out 'Income').\n" +
    "            - Use the 'category' " +
    "field for grouping.\n" +
    "            \n" +
    "            User Profile: "
  const AnalystPromptTransactions: string := "\n            Transactions: "

  function AnalystRequest(message: string, context: string, transactions: string): Request {
    Request(ModelName, Some(message),
      NoConfig.(systemInstruction := Some(AnalystPromptHead + context + AnalystPromptTransactions + transactions + PromptIndent),
                responseMimeType := Some("application/json")))
  }

  /** `dict.get(key, default)`. */
  function DictGet(m: map<string, Json>, key: string, default: Json): Json {
    if key in m then m[key] else default
  }

  /** Reading the analyst's JSON answer. `json.loads(None)` raises a
      `TypeError` and `.get` on anything but an object raises an
      `AttributeError`; neither is the `JSONDecodeError` the inner handler
      catches. */
  function AnalystReply(resp: ModelResponse, parseJson: string -> Option<Json>): (r: Call<Reply>)
    ensures resp.text.None? ==> r.Raised?
    ensures (resp.text.Some? && parseJson(resp.text.value).None?) ==>
              r == Returned(Reply(JString(resp.text.value), None, None, None))
    ensures resp.text.Some? && parseJson(resp.text.value).Some? && parseJson(resp.text.value).value.JObject? ==>
              var m := parseJson(resp.text.value).value.members;
              && r.Returned? && r.value.groundingUrls.None? && r.value.audioBase64.None?
              && (("analysis" in m ==> r.value.text == m["analysis"]) && ("analysis" !in m ==> r.value.text == JString(AnalysisDefault)))
              && (("chart_data" in m ==> r.value.chartData == Some(m["chart_data"])) && ("chart_data" !in m ==> r.value.chartData == Some(JArray([]))))
    ensures resp.text.Some? && parseJson(resp.text.value).Some? && !parseJson(resp.text.value).value.JObject? ==> r.Raised?
  {
    match resp.text
    case None => Raised
    case Some(raw) =>
      match parseJson(raw)
      case None => Returned(Reply(JString(raw), None, None, None))
      case Some(JObject(m)) =>
        Returned(Reply(DictGet(m, "analysis", JString(AnalysisDefault)), None, None, Some(DictGet(m, "chart_data", JArray([])))))
      case Some(_) => Raised
  }

  function Analyst(message: string, context: string, env: Services): Call<Reply> {
    match env.generate(AnalystRequest(message, context, TransactionsText(env.warehouse)))
    case Raised => Raised
    case Returned(resp) => AnalystReply(resp, env.parseJson)
  }

  // ---------------------------------------------------------------------
  // Dispatch
  // ---------------------------------------------------------------------

  /** The `if`/`elif` chain on the agent-type string. */
  function ParseAgentType(name: string): (t: Option<AgentType>)
    ensures t.None? <==> name !in KnownAgentNames
    ensures t.Some? ==> AgentTypeName(t.value) == name
  {
    if name == "GENERAL" then Some(GENERAL)
    else if name == "SUPPORT" then Some(SUPPORT)
    else if name == "NEWS" then Some(NEWS)
    else if name == "ANALYST" then Some(ANALYST)
    else None
  }

  /** Every agent the front end can send is recognised as itself. */
  lemma ParseAgentTypeName(t: AgentType)
    ensures ParseAgentType(AgentTypeName(t)) == Some(t)
  {
  }

  /** The strategy each agent runs. */
  function RunStrategy(t: AgentType, message: string, profile: Option<ProfileDict>, env: Services): Call<Reply> {
    var context := FormatProfileContext(profile);
    match t
    case GENERAL => General(message, context, env)
    case SUPPORT => Support(message, context, env)
    case NEWS => News(message, profile, context, env)
    case ANALYST => Analyst(message, context, env)
  }

  /** The first model request each agent sends. */
  function FirstRequest(t: AgentType, message: string, profile: Option<ProfileDict>, env: Services): Request {
    var context := FormatProfileContext(profile);
    match t
    case GENERAL => GeneralRequest(message, context)
    case SUPPORT => SupportRequest(message, context)
    case NEWS => NewsArticleRequest(message, profile, context)
    case ANALYST => AnalystRequest(message, context, TransactionsText(env.warehouse))
  }

  /** `generate_response`: unknown agent types get a fixed explanation, and
      any exception a strategy raises becomes the fixed apology with no
      citations, audio or chart. */
  function GenerateResponse(agentType: string, message: string, profile: Option<ProfileDict>, env: Services): (r: Reply)
    ensures agentType !in KnownAgentNames ==> r == Reply(JString(UnknownAgentText), None, None, None)
    ensures agentType in KnownAgentNames && RunStrategy(ParseAgentType(agentType).value, message, profile, env).Raised? ==>
              r == Reply(JString(ErrorText), None, None, None)
    ensures agentType in KnownAgentNames && RunStrategy(ParseAgentType(agentType).value, message, profile, env).Returned? ==>
              r == RunStrategy(ParseAgentType(agentType).value, message, profile, env).value
  {
    match ParseAgentType(agentType)
    case None => TextReply(UnknownAgentText)
    case Some(t) =>
      match RunStrategy(t, message, profile, env)
      case Raised => TextReply(ErrorText)
      case Returned(reply) => reply
  }

  /** When an agent's first model call raises, the reply is the apology alone. */
  lemma FirstCallFailure(t: AgentType, message: string, profile: Option<ProfileDict>, env: Services)
    requires env.generate(FirstRequest(t, message, profile, env)).Raised?
    ensures GenerateResponse(AgentTypeName(t), message, profile, env) == Reply(JString(ErrorText), None, None, None)
  {
    ParseAgentTypeName(t);
  }

  /** GENERAL and SUPPORT replies carry the model's text and the citations of
      their own source field with their own placeholder, and nothing else. */
  lemma SearchAgentsReply(t: AgentType, message: string, profile: Option<ProfileDict>, env: Services)
    requires t == GENERAL || t == SUPPORT
    requires env.generate(FirstRequest(t, message, profile, env)).Returned?
    ensures var resp := env.generate(FirstRequest(t, message, profile, env)).value;
            var kind := if t == GENERAL then Web else RetrievedContext;
            var placeholder := if t == GENERAL then GeneralPlaceholder else SupportPlaceholder;
            GenerateResponse(AgentTypeName(t), message, profile, env)
              == Reply(TextValue(resp.text), Some(ExtractCitations(resp, kind, placeholder)), None, None)
  {
    ParseAgentTypeName(t);
  }

  /** NEWS keeps the article and its citations even when the summary or the
      speech call fails; only the audio is then `None`. */
  lemma NewsDegradesToTextOnly(message: string, profile: Option<ProfileDict>, env: Services)
    requires env.generate(FirstRequest(NEWS, message, profile, env)).Returned?
    ensures var article := env.generate(FirstRequest(NEWS, message, profile, env)).value;
            var r := GenerateResponse("NEWS", message, profile, env);
            && r.text == TextValue(article.text)
            && r.groundingUrls == Some(ExtractCitations(article, Web, NewsPlaceholder))
            && r.audioBase64.Some? && r.chartData.None?
            && (env.generate(SummaryRequest(article.text)).Raised? ==> r.audioBase64 == Some(None))
  {
    ParseAgentTypeName(NEWS);
  }

  /** NEWS delivers the speech: when the article, the summary and the speech
      calls all return and the speech carries inline bytes, the reply holds
      the article, its citations and exactly those bytes. */
  lemma NewsDeliversAudio(message: string, profile: Option<ProfileDict>, env: Services, bytes: seq<byte>)
    requires env.generate(FirstRequest(NEWS, message, profile, env)).Returned?
    requires var article := env.generate(FirstRequest(NEWS, message, profile, env)).value;
             && env.generate(SummaryRequest(article.text)).Returned?
             && var summary := env.generate(SummaryRequest(article.text)).value;
                && env.generate(SpeechRequest(summary.text)).Returned?
                && CarriesAudio(env.generate(SpeechRequest(summary.text)).value, bytes)
    ensures var article := env.generate(FirstRequest(NEWS, message, profile, env)).value;
            GenerateResponse("NEWS", message, profile, env)
              == Reply(TextValue(article.text), Some(ExtractCitations(article, Web, NewsPlaceholder)), Some(Some(bytes)), None)
  {
    ParseAgentTypeName(NEWS);
  }

  /** ANALYST: a JSON object gives its analysis (or the default) and its chart
      data (or an empty list); text that is not JSON is passed through with no
      chart data. */
  lemma AnalystOutcomes(message: string, profile: Option<ProfileDict>, env: Services)
    requires env.generate(FirstRequest(ANALYST, message, profile, env)).Returned?
    requires env.generate(FirstRequest(ANALYST, message, profile, env)).value.text.Some?
    ensures var raw := env.generate(FirstRequest(ANALYST, message, profile, env)).value.text.value;
            var r := GenerateResponse("ANALYST", message, profile, env);
            && (env.parseJson(raw).None? ==> r == Reply(JString(raw), None, None, None))
            && (env.parseJson(raw).Some? && env.parseJson(raw).value.JObject? ==>
                  var m := env.parseJson(raw).value.members;
                  r == Reply(DictGet(m, "analysis", JString(AnalysisDefault)), None, None, Some(DictGet(m, "chart_data", JArray([])))))
            && (env.parseJson(raw).Some? && !env.parseJson(raw).value.JObject? ==> r == Reply(JString(ErrorText), None, None, None))
  {
    ParseAgentTypeName(ANALYST);
  }

  /** Python truthiness at the prompt level: no profile and an empty profile
      dict build identical requests for every agent, and neither carries any
      profile context. */
  lemma EmptyProfileLikeNone(t: AgentType, message: string, env: Services)
    ensures FormatProfileContext(None) == "" && FormatProfileContext(Some(ProfileDict(Absent, Absent, Absent, Absent, 0))) == ""
    ensures FirstRequest(t, message, None, env) == FirstRequest(t, message, Some(ProfileDict(Absent, Absent, Absent, Absent, 0)), env)
  {
  }
}

=== FILE: audio.dfy ===
/**
 * The PCM decoder of services/audioUtils.ts: the binary string produced by
 * `atob` is copied into bytes, the bytes are viewed as little-endian signed
 * 16-bit samples, and each sample is scaled by 1/32768 into a mono buffer.
 */
module Audio {
  import opened Base
  import opened Types

  /** A JavaScript string element: a UTF-16 code unit. */
  newtype CodeUnit = x: int | 0 <= x < 0x1_0000

  const DefaultSampleRate: int := 24000

  /** Why building the buffer throws. */
  datatype DecodeError =
    /** `new Int16Array(buffer)` rejects a byte length that is not a multiple of 2. */
    | OddByteLength
    /** `createBuffer` rejects a length of zero sample-frames. */
    | EmptyBuffer

  /** `decode`: one byte per code unit, holding the code unit modulo 256 as a
      `Uint8Array` store does. */
  method Decode(binary: seq<CodeUnit>) returns (bytes: seq<byte>)
    ensures |bytes| == |binary|
    ensures forall i :: 0 <= i < |binary| ==> bytes[i] as int == binary[i] as int % 256
    ensures (forall i :: 0 <= i < |binary| ==> binary[i] < 256) ==>
              forall i :: 0 <= i < |binary| ==> bytes[i] as int == binary[i] as int
  {
    bytes := [];
    var i := 0;
    while i < |binary|
      invariant 0 <= i <= |binary|
      invariant |bytes| == i
      invariant forall k :: 0 <= k < i ==> bytes[k] as int == binary[k] as int % 256
    {
      bytes := bytes + [(binary[i] as int % 256) as byte];
      i := i + 1;
    }
  }

  /** The two's-complement value of the 16-bit word `lo + 256 * hi`. */
  function Int16(lo: byte, hi: byte): (s: int)
    ensures -32768 <= s < 32768
    ensures (s + 65536) % 65536 == lo as int + 256 * hi as int
  {
    var u := lo as int + 256 * hi as int;
    if u >= 32768 then u - 65536 else u
  }

  /** The low and high bytes of a 16-bit sample, as a little-endian platform lays it out. */
  function LowByte(s: int): byte
    requires -32768 <= s < 32768
  {
    ((s + 65536) % 256) as byte
  }

  function HighByte(s: int): byte
    requires -32768 <= s < 32768
  {
    (((s + 65536) % 65536) / 256) as byte
  }

  /** Reading a sample back from its two bytes gives the sample. */
  lemma Int16OfBytes(s: int)
    requires -32768 <= s < 32768
    ensures Int16(LowByte(s), HighByte(s)) == s
  {
  }

  /** Writing a read sample back gives the bytes it was read from. */
  lemma BytesOfInt16(lo: byte, hi: byte)
    ensures LowByte(Int16(lo, hi)) == lo && HighByte(Int16(lo, hi)) == hi
  {
  }

  /** The `Int16Array` view: sample i is built from bytes 2i and 2i+1. */
  function Int16View(bytes: seq<byte>): (samples: seq<int>)
    requires |bytes| % 2 == 0
    ensures |samples| == |bytes| / 2
    ensures forall i :: 0 <= i < |samples| ==> -32768 <= samples[i] < 32768
  {
    seq(|bytes| / 2, i requires 0 <= i < |bytes| / 2 => Int16(bytes[2 * i], bytes[2 * i + 1]))
  }

  /** `sample / 32768.0`; the quotient is exact in a `Float32Array`. */
  function Normalize(sample: int): real
  {
    sample as real / 32768.0
  }

  /** Every normalised sample lies in [-1, 1). */
  lemma NormalizeRange(sample: int)
    requires -32768 <= sample < 32768
    ensures -1.0 <= Normalize(sample) < 1.0
  {
  }

  /** Multiplying by 32768 recovers the sample exactly. */
  lemma NormalizeInverse(sample: int)
    ensures Normalize(sample) * 32768.0 == sample as real
    ensures (Normalize(sample) * 32768.0).Floor == sample
  {
  }

  /** Scaling keeps order and sign, and maps silence to silence. */
  lemma NormalizeMonotone(a: int, b: int)
    ensures a < b <==> Normalize(a) < Normalize(b)
    ensures Normalize(a) == 0.0 <==> a == 0
    ensures Normalize(a) < 0.0 <==> a < 0
  {
  }

  /** `decodeAudioData`: decodes the binary string and fills a one-channel buffer
      of `|bytes| / 2` frames at `sampleRate`, or reports why the browser throws. */
  method DecodeAudioData(binary: seq<CodeUnit>, sampleRate: int := DefaultSampleRate)
    returns (r: Result<AudioBuffer, DecodeError>)
    ensures |binary| % 2 == 1 <==> r == Err(OddByteLength)
    ensures |binary| == 0 <==> r == Err(EmptyBuffer)
    ensures r.Ok? ==> r.value.sampleRate == sampleRate && |r.value.channels| == 1
    ensures r.Ok? ==> |r.value.channels[0]| == |binary| / 2
    ensures r.Ok? ==> forall i :: 0 <= i < |binary| / 2 ==>
              r.value.channels[0][i] ==
              Normalize(Int16((binary[2 * i] as int % 256) as byte, (binary[2 * i + 1] as int % 256) as byte))
  {
    var bytes := Decode(binary);
    if |bytes| % 2 == 1 {
      return Err(OddByteLength);
    }
    var samples := Int16View(bytes);
    var frameCount := |samples|;
    if frameCount == 0 {
      return Err(EmptyBuffer);
    }
    var channelData: seq<real> := [];
    var i := 0;
    while i < frameCount
      invariant 0 <= i <= frameCount
      invariant |channelData| == i
      invariant forall k :: 0 <= k < i ==> channelData[k] == Normalize(samples[k])
    {
      channelData := channelData + [Normalize(samples[i])];
      i := i + 1;
    }
    r := Ok(AudioBuffer(sampleRate, [channelData]));
  }
}

=== FILE: base.dfy ===
/** Small general-purpose datatypes shared by every module. */
module Base {

  /** A value that may be missing: JavaScript's `undefined`, Python's `None`. */
  datatype Option<+T> = None | Some(value: T) {
    function GetOr(default: T): T {
      match this
      case Some(v) => v
      case None => default
    }
  }

  /** The outcome of an operation that can fail with an error value. */
  datatype Result<+T, +E> = Ok(value: T) | Err(error: E)

  /** An octet, as held by a `Uint8Array` or a Python `bytes`. */
  newtype byte = x: int | 0 <= x < 256
}

=== FILE: chat.dfy ===
/**
 * The chat session of components/ChatInterface.tsx as a state machine: the
 * state its hooks hold, and each handler as a pure transition. Sending is
 * split at the `await`: `Submit` is everything before it and yields the
 * request to make, `Receive` is everything after it.
 */
module Chat {
  import opened Base
  import opened Strings
  import opened Types

  datatype Role = User | Model

  /** A message as the list renders it. `audioData` is the first channel of
      the buffer the message keeps for playback. */
  datatype Message = Message(
    role: Role,
    text: string,
    groundingUrls: Option<seq<GroundingUrl>>,
    audioData: Option<seq<real>>,
    audioBuffer: Option<AudioBuffer>)

  /** The state the component's hooks hold. */
  datatype ChatState = ChatState(
    activeAgentId: AgentType,
    dropdownOpen: bool,
    messages: seq<Message>,
    input: string,
    loading: bool)

  /** What the client service resolves to. */
  datatype AgentResponse = AgentResponse(text: string, groundingUrls: Option<seq<GroundingUrl>>, audioBuffer: Option<AudioBuffer>)

  /** The request an accepted send makes: the agent active at that moment
      and the input exactly as typed. */
  datatype Outgoing = Outgoing(agent: AgentType, text: string)

  const WelcomeText: string := "こんにちは。GENESIS AIコンシェルジュへようこそ。ご用件をお伺いします。"

  const Welcome: Message := Message(Model, WelcomeText, None, None, None)

  /** The state after mounting. */
  const Init: ChatState := ChatState(GENERAL, false, [Welcome], "", false)

  /** Every reachable state starts its history with the welcome message. */
  predicate Wf(s: ChatState) {
    |s.messages| >= 1 && s.messages[0] == Welcome
  }

  /** The mounted chat shows the general concierge with only the greeting. */
  lemma InitWf()
    ensures Wf(Init) && Init.activeAgentId == GENERAL && Init.messages == [Welcome]
    ensures !Init.loading && !Init.dropdownOpen && Init.input == ""
  {
  }

  /** `AGENTS.find(a => a.id === id)`: the first entry with the id. */
  function Find(agents: seq<AgentConfig>, id: AgentType): (r: Option<AgentConfig>)
    ensures r.Some? ==> exists k :: FirstWithId(agents, id, k) && r.value == agents[k]
    ensures r.None? <==> forall i :: 0 <= i < |agents| ==> agents[i].id != id
  {
    if |agents| == 0 then None
    else if agents[0].id == id then
      assert FirstWithId(agents, id, 0);
      Some(agents[0])
    else
      var r := Find(agents[1..], id);
      if r.Some? then
        var k :| FirstWithId(agents[1..], id, k) && r.value == agents[1..][k];
        assert FirstWithId(agents, id, k + 1);
        r
      else r
  }

  /** Entry `k` is the first one with the id. */
  predicate FirstWithId(agents: seq<AgentConfig>, id: AgentType, k: int) {
    0 <= k < |agents| && agents[k].id == id && forall j :: 0 <= j < k ==> agents[j].id != id
  }

  /** `find(...) || agents[0]`. */
  function Lookup(agents: seq<AgentConfig>, id: AgentType): (a: AgentConfig)
    requires |agents| > 0
    ensures (exists i :: 0 <= i < |agents| && agents[i].id == id) ==> exists k :: FirstWithId(agents, id, k) && a == agents[k]
    ensures (forall i :: 0 <= i < |agents| ==> agents[i].id != id) ==> a == agents[0]
  {
    match Find(agents, id)
    case Some(a) => a
    case None => agents[0]
  }

  /** `activeAgent`: every agent type has its own entry, so the fallback to
      the first entry is never taken and the header shows the active agent. */
  lemma ActiveAgentFound(id: AgentType)
    ensures Lookup(AGENTS, id).id == id
    ensures Find(AGENTS, id).Some?
  {
    var i := match id case GENERAL => 0 case SUPPORT => 1 case NEWS => 2 case ANALYST => 3;
    assert AGENTS[i].id == id;
  }

  /** `handleSendMessage` up to the `await`: blank input or a request in
      flight does nothing; otherwise the input as typed becomes a user
      message, the field is cleared and loading starts. */
  function Submit(s: ChatState): (r: (ChatState, Option<Outgoing>))
    ensures Trim(s.input) == "" || s.loading ==> r == (s, None)
    ensures Trim(s.input) != "" && !s.loading ==>
              && r.1 == Some(Outgoing(s.activeAgentId, s.input))
              && r.0 == s.(messages := s.messages + [Message(User, s.input, None, None, None)], input := "", loading := true)
  {
    if Trim(s.input) == "" || s.loading then (s, None)
    else
      var userMessage := Message(User, s.input, None, None, None);
      (s.(messages := s.messages + [userMessage], input := "", loading := true), Some(Outgoing(s.activeAgentId, s.input)))
  }

  /** Blank input is exactly input made only of whitespace. */
  lemma SubmitBlank(s: ChatState)
    requires !s.loading
    ensures Submit(s).1.None? <==> AllSpace(s.input)
  {
    TrimEmptyIffAllSpace(s.input);
  }

  /** `handleSendMessage` after the `await`: the reply is appended to the
      history as it is at that moment, and loading ends. */
  function Receive(s: ChatState, response: AgentResponse): (r: ChatState)
    requires response.audioBuffer.Some? ==> |response.audioBuffer.value.channels| >= 1
    ensures |r.messages| == |s.messages| + 1 && r.messages[..|s.messages|] == s.messages
    ensures var m := r.messages[|s.messages|];
            && m.role == Model && m.text == response.text && m.groundingUrls == response.groundingUrls
            && m.audioBuffer == response.audioBuffer
            && (response.audioBuffer.None? ==> m.audioData.None?)
            && (response.audioBuffer.Some? ==> m.audioData == Some(response.audioBuffer.value.channels[0]))
    ensures !r.loading && r.(messages := s.messages, loading := s.loading) == s
  {
    var audioData := match response.audioBuffer
      case None => None
      case Some(buffer) => Some(buffer.channels[0]);
    var botMessage := Message(Model, response.text, response.groundingUrls, audioData, response.audioBuffer);
    s.(messages := s.messages + [botMessage], loading := false)
  }

  /** `handleAgentSelect`: the chosen agent becomes active, the dropdown
      closes and the history restarts from the greeting. Loading and the
      input are left as they are. */
  function SelectAgent(s: ChatState, id: AgentType): (r: ChatState)
    ensures r.activeAgentId == id && !r.dropdownOpen && r.messages == [Welcome]
    ensures r.input == s.input && r.loading == s.loading
  {
    s.(activeAgentId := id, dropdownOpen := false, messages := [Welcome])
  }

  /** The header button flips the dropdown; the backdrop closes it. */
  function ToggleDropdown(s: ChatState): (r: ChatState)
    ensures r.dropdownOpen != s.dropdownOpen && r.(dropdownOpen := s.dropdownOpen) == s
  {
    s.(dropdownOpen := !s.dropdownOpen)
  }

  function CloseDropdown(s: ChatState): (r: ChatState)
    ensures !r.dropdownOpen && r.(dropdownOpen := s.dropdownOpen) == s
  {
    s.(dropdownOpen := false)
  }

  /** The input's `onChange`. */
  function SetInput(s: ChatState, text: string): (r: ChatState)
    ensures r.input == text && r.(input := s.input) == s
  {
    s.(input := text)
  }

  /** `handleKeyDown`: Enter sends unless an input method is still composing. */
  function KeyDown(s: ChatState, key: string, isComposing: bool): (r: (ChatState, Option<Outgoing>))
    ensures key != "Enter" || isComposing ==> r == (s, None)
    ensures key == "Enter" && !isComposing ==> r == Submit(s)
  {
    if key == "Enter" && !isComposing then Submit(s) else (s, None)
  }

  /** Pressing Enter while composing Japanese text never sends. */
  lemma ComposingNeverSends(s: ChatState, key: string)
    ensures KeyDown(s, key, true).1.None? && KeyDown(s, key, true).0 == s
  {
  }

  /** One user action or one resolved request. */
  datatype Event =
    | Send
    | Key(key: string, isComposing: bool)
    | Arrive(response: AgentResponse)
    | Pick(id: AgentType)
    | Toggle
    | Close
    | Type(text: string)

  /** Responses the decoder can produce carry at least one channel. */
  predicate WellFormedEvent(e: Event) {
    e.Arrive? ==> (e.response.audioBuffer.Some? ==> |e.response.audioBuffer.value.channels| >= 1)
  }

  function Step(s: ChatState, e: Event): ChatState
    requires WellFormedEvent(e)
  {
    match e
    case Send => Submit(s).0
    case Key(k, c) => KeyDown(s, k, c).0
    case Arrive(resp) => Receive(s, resp)
    case Pick(id) => SelectAgent(s, id)
    case Toggle => ToggleDropdown(s)
    case Close => CloseDropdown(s)
    case Type(t) => SetInput(s, t)
  }

  /** Every transition keeps the greeting at the head of the history. */
  lemma StepWf(s: ChatState, e: Event)
    requires Wf(s) && WellFormedEvent(e)
    ensures Wf(Step(s, e))
  {
  }

  function Run(s: ChatState, events: seq<Event>): ChatState
    requires forall i :: 0 <= i < |events| ==> WellFormedEvent(events[i])
    decreases |events|
  {
    if |events| == 0 then s else Run(Step(s, events[0]), events[1..])
  }

  /** From mounting, any sequence of events leaves a history that starts with
      the greeting. */
  lemma {:induction false} RunWf(s: ChatState, events: seq<Event>)
    requires Wf(s)
    requires forall i :: 0 <= i < |events| ==> WellFormedEvent(events[i])
    ensures Wf(Run(s, events))
    decreases |events|
  {
    if |events| > 0 {
      StepWf(s, events[0]);
      RunWf(Step(s, events[0]), events[1..]);
    }
  }

  /** The model message a reply becomes: its text, citations and buffer, and
      the first channel of the buffer for playback. */
  predicate Answers(m: Message, response: AgentResponse)
    requires response.audioBuffer.Some? ==> |response.audioBuffer.value.channels| >= 1
  {
    && m.role == Model && m.text == response.text && m.groundingUrls == response.groundingUrls
    && m.audioBuffer == response.audioBuffer
    && m.audioData == (if response.audioBuffer.Some? then Some(response.audioBuffer.value.channels[0]) else None)
  }

  /** A send followed by its reply adds exactly the question and the answer,
      in that order, and leaves the session ready for the next send. */
  lemma SendThenReceive(s: ChatState, response: AgentResponse)
    requires Trim(s.input) != "" && !s.loading
    requires response.audioBuffer.Some? ==> |response.audioBuffer.value.channels| >= 1
    ensures var r := Receive(Submit(s).0, response);
            && |r.messages| == |s.messages| + 2
            && r.messages[..|s.messages|] == s.messages
            && r.messages[|s.messages|] == Message(User, s.input, None, None, None)
            && Answers(r.messages[|s.messages| + 1], response)
            && !r.loading && r.input == "" && r.activeAgentId == s.activeAgentId
  {
  }

  /** While a request is in flight a second send does nothing, so there is
      never more than one outstanding request. */
  lemma NoDoubleSend(s: ChatState, text: string)
    requires Submit(s).1.Some?
    ensures Submit(SetInput(Submit(s).0, text)) == (SetInput(Submit(s).0, text), None)
  {
  }

  /** Switching agents while a request is in flight does not cancel it: the
      late reply, audio included, lands after the fresh greeting of the new
      agent. */
  lemma SwitchDuringLoading(s: ChatState, id: AgentType, response: AgentResponse)
    requires Submit(s).1.Some?
    requires response.audioBuffer.Some? ==> |response.audioBuffer.value.channels| >= 1
    ensures var r := Receive(SelectAgent(Submit(s).0, id), response);
            && r.activeAgentId == id
            && |r.messages| == 2 && r.messages[0] == Welcome
            && Answers(r.messages[1], response)
  {
  }
}

=== FILE: markdown.dfy ===
/**
 * The lightweight renderer of components/MarkdownRenderer.tsx: content is
 * split into lines, each line is classified as a spacer, a heading, a bullet
 * or a paragraph, and bullet and paragraph text is split on the non-greedy
 * regular expression `(\*\*.*?\*\*)` to find bold runs.
 */
module Markdown {
  import opened Base
  import opened Strings

  /** A run of displayed text. */
  datatype Inline = Plain(text: string) | Bold(text: string)

  /** What one line renders as. */
  datatype Block =
    | Spacer
    | H4(text: string)
    | H3(text: string)
    | H2(text: string)
    | Bullet(body: seq<Inline>)
    | Paragraph(body: seq<Inline>)

  /** The characters a regular-expression `.` does not match. */
  predicate IsLineTerminator(c: char) {
    c == '\n' || c == '\r' || c == '\U{2028}' || c == '\U{2029}'
  }

  const Stars: string := "**"

  /** `.*?\*\*` matched from position `k` ends at `e`: the first `**` at or
      after `k` ends at `e`, and no line terminator precedes it. */
  predicate ClosesAt(s: string, k: nat, e: nat) {
    && k + 2 <= e <= |s|
    && OccursAt(s, Stars, e - 2)
    && forall j :: k <= j < e - 2 ==> !IsLineTerminator(s[j]) && !OccursAt(s, Stars, j)
  }

  /** `\*\*.*?\*\*` matches `s[q..e]`. */
  predicate BoldSpanAt(s: string, q: nat, e: nat) {
    OccursAt(s, Stars, q) && ClosesAt(s, q + 2, e)
  }

  /** The whole of `t` is one match of the bold pattern. */
  predicate IsBoldSpan(t: string) {
    BoldSpanAt(t, 0, |t|)
  }

  /** No substring of `t` matches the bold pattern. */
  predicate NoBoldSpan(t: string) {
    forall j: nat, e: nat | j <= e <= |t| :: !BoldSpanAt(t, j, e)
  }

  /** The non-greedy search for the closing `**`, one position at a time. */
  function CloseFrom(s: string, k: nat): (r: Option<nat>)
    requires k <= |s|
    ensures r.Some? ==> ClosesAt(s, k, r.value)
    decreases |s| - k
  {
    if OccursAt(s, Stars, k) then Some(k + 2)
    else if k < |s| && !IsLineTerminator(s[k]) then CloseFrom(s, k + 1)
    else None
  }

  /** When the search fails, nothing closes from `k`. */
  lemma {:induction false} CloseFromComplete(s: string, k: nat, e: nat)
    requires k <= |s|
    requires ClosesAt(s, k, e)
    ensures CloseFrom(s, k) == Some(e)
    decreases |s| - k
  {
    if e - 2 == k {
    } else {
      assert !IsLineTerminator(s[k]) && !OccursAt(s, Stars, k);
      CloseFromComplete(s, k + 1, e);
    }
  }

  /** The regular expression tried at position `q`: the end of the match, if any. */
  function MatchAt(s: string, q: nat): (r: Option<nat>)
    requires q <= |s|
    ensures r.Some? ==> BoldSpanAt(s, q, r.value)
  {
    if OccursAt(s, Stars, q) then CloseFrom(s, q + 2) else None
  }

  /** The match found at `q` is the only one starting there, and it is found
      whenever one exists. */
  lemma MatchAtComplete(s: string, q: nat, e: nat)
    requires q <= |s|
    requires BoldSpanAt(s, q, e)
    ensures MatchAt(s, q) == Some(e)
  {
    CloseFromComplete(s, q + 2, e);
  }

  /** `String.prototype.split` with the capturing pattern: `p` is where the
      current piece starts and `q` the position being tried. Unmatched pieces
      and captured matches alternate. */
  function SplitFrom(s: string, p: nat, q: nat): seq<string>
    requires p <= q <= |s|
    decreases |s| - q
  {
    if q == |s| then [s[p..]]
    else
      match MatchAt(s, q)
      case Some(e) => [s[p..q], s[q..e]] + SplitFrom(s, e, e)
      case None => SplitFrom(s, p, q + 1)
  }

  /** `text.split(/(\*\*.*?\*\*)/g)`. */
  function SplitBold(text: string): seq<string>
  {
    SplitFrom(text, 0, 0)
  }

  function Concat(parts: seq<string>): string
  {
    if |parts| == 0 then "" else parts[0] + Concat(parts[1..])
  }

  lemma {:induction false} ConcatAppend(a: seq<string>, b: seq<string>)
    ensures Concat(a + b) == Concat(a) + Concat(b)
  {
    if |a| > 0 {
      assert (a + b)[1..] == a[1..] + b;
      ConcatAppend(a[1..], b);
    } else {
      assert a + b == b;
    }
  }

  /** The pieces of a split, concatenated, give back the text from `p`. */
  lemma {:induction false} SplitFromConcat(s: string, p: nat, q: nat)
    requires p <= q <= |s|
    ensures Concat(SplitFrom(s, p, q)) == s[p..]
    decreases |s| - q
  {
    if q < |s| {
      match MatchAt(s, q)
      case Some(e) =>
        SplitFromConcat(s, e, e);
        ConcatPair(s[p..q], s[q..e], SplitFrom(s, e, e));
        SliceThree(s, p, q, e);
      case None =>
        SplitFromConcat(s, p, q + 1);
    }
  }

  lemma ConcatPair(a: string, b: string, rest: seq<string>)
    ensures Concat([a, b] + rest) == a + b + Concat(rest)
  {
    assert ([a, b] + rest)[1..] == [b] + rest;
    assert ([b] + rest)[1..] == rest;
  }

  lemma SliceThree(s: string, p: nat, q: nat, e: nat)
    requires p <= q <= e <= |s|
    ensures s[p..] == s[p..q] + s[q..e] + s[e..]
  {
  }

  /** Splitting on bold runs loses and invents nothing. */
  lemma SplitBoldConcat(text: string)
    ensures Concat(SplitBold(text)) == text
  {
    SplitFromConcat(text, 0, 0);
  }

  /** `**` occurs at `k` in a slice exactly when it occurs at the matching
      position of the whole string. */
  lemma SliceOccurs(s: string, p: nat, q: nat, k: nat)
    requires p <= q <= |s| && k + 2 <= q - p
    ensures OccursAt(s[p..q], Stars, k) <==> OccursAt(s, Stars, p + k)
  {
    var t := s[p..q];
    assert t[k] == s[p + k] && t[k + 1] == s[p + k + 1];
    assert t[k..k + 2] == [t[k], t[k + 1]];
    assert s[p + k..p + k + 2] == [s[p + k], s[p + k + 1]];
  }

  /** A match inside a slice is a match in the whole string. */
  lemma SpanInSlice(s: string, p: nat, q: nat, j: nat, e: nat)
    requires p <= q <= |s|
    requires BoldSpanAt(s[p..q], j, e)
    ensures BoldSpanAt(s, p + j, p + e)
  {
    SliceOccurs(s, p, q, j);
    SliceOccurs(s, p, q, e - 2);
    forall i | p + j + 2 <= i < p + e - 2
      ensures !IsLineTerminator(s[i]) && !OccursAt(s, Stars, i)
    {
      assert s[p..q][i - p] == s[i];
      SliceOccurs(s, p, q, i - p);
    }
  }

  /** A piece in which no match starts contains no match at all. */
  lemma PieceHasNoSpan(s: string, p: nat, q: nat)
    requires p <= q <= |s|
    requires forall j :: p <= j < q ==> MatchAt(s, j).None?
    ensures NoBoldSpan(s[p..q])
  {
    forall j: nat, e: nat | BoldSpanAt(s[p..q], j, e)
      ensures false
    {
      SpanInSlice(s, p, q, j, e);
      MatchAtComplete(s, p + j, p + e);
    }
  }

  /** A captured match, cut out of the string, is a match on its own. */
  lemma SpanCut(s: string, q: nat, e: nat)
    requires BoldSpanAt(s, q, e)
    ensures IsBoldSpan(s[q..e])
  {
    var t := s[q..e];
    assert t[0..2] == s[q..q + 2];
    assert t[|t| - 2..|t|] == s[e - 2..e];
    forall i | 2 <= i < |t| - 2
      ensures !IsLineTerminator(t[i]) && !OccursAt(t, Stars, i)
    {
      assert t[i] == s[q + i];
      assert t[i..i + 2] == s[q + i..q + i + 2];
    }
  }

  /** Unmatched text containing no match, then any number of (whole match,
      unmatched text) pairs. */
  predicate Alternating(parts: seq<string>)
    decreases |parts|
  {
    && |parts| >= 1
    && NoBoldSpan(parts[0])
    && (|parts| == 1 || (|parts| >= 3 && IsBoldSpan(parts[1]) && Alternating(parts[2..])))
  }

  /** The pieces of a split alternate. */
  lemma {:induction false} SplitFromShape(s: string, p: nat, q: nat)
    requires p <= q <= |s|
    requires forall j :: p <= j < q ==> MatchAt(s, j).None?
    ensures Alternating(SplitFrom(s, p, q))
    decreases |s| - q
  {
    if q == |s| {
      PieceHasNoSpan(s, p, q);
      assert s[p..] == s[p..q];
    } else {
      match MatchAt(s, q)
      case Some(e) =>
        var rest := SplitFrom(s, e, e);
        SplitFromShape(s, e, e);
        PieceHasNoSpan(s, p, q);
        SpanCut(s, q, e);
        assert ([s[p..q], s[q..e]] + rest)[2..] == rest;
      case None =>
        SplitFromShape(s, p, q + 1);
    }
  }

  /** In an alternating sequence, even positions hold unmatched text and odd
      positions whole matches, and there is an odd number of pieces. */
  lemma {:induction false} AlternatingIndex(parts: seq<string>)
    requires Alternating(parts)
    ensures |parts| % 2 == 1
    ensures forall i :: 0 <= i < |parts| && i % 2 == 0 ==> NoBoldSpan(parts[i])
    ensures forall i :: 0 <= i < |parts| && i % 2 == 1 ==> IsBoldSpan(parts[i])
    decreases |parts|
  {
    if |parts| > 1 {
      AlternatingIndex(parts[2..]);
      forall i | 2 <= i < |parts|
        ensures parts[i] == parts[2..][i - 2]
      {
      }
    }
  }

  /** The split of any text alternates unmatched text and whole matches,
      starting and ending with unmatched text. */
  lemma SplitBoldShape(text: string)
    ensures |SplitBold(text)| % 2 == 1
    ensures forall i :: 0 <= i < |SplitBold(text)| && i % 2 == 0 ==> NoBoldSpan(SplitBold(text)[i])
    ensures forall i :: 0 <= i < |SplitBold(text)| && i % 2 == 1 ==> IsBoldSpan(SplitBold(text)[i])
  {
    SplitFromShape(text, 0, 0);
    AlternatingIndex(SplitBold(text));
  }

  /** `parts` is the split of `s[p..]` that the regular expression makes:
      each unmatched piece runs from `p` up to the first position where a
      match starts (or to the end), and the piece after it is exactly the
      match found there. */
  predicate Leftmost(s: string, p: nat, parts: seq<string>)
    requires p <= |s|
    decreases |parts|
  {
    && |parts| >= 1
    && var q := p + |parts[0]|;
       && q <= |s| && parts[0] == s[p..q]
       && (forall j :: p <= j < q ==> MatchAt(s, j).None?)
       && if |parts| == 1 then q == |s|
          else
            && |parts| >= 3
            && MatchAt(s, q).Some?
            && parts[1] == s[q..MatchAt(s, q).value]
            && Leftmost(s, MatchAt(s, q).value, parts[2..])
  }

  /** The split scans for the leftmost match. */
  lemma {:induction false} SplitFromLeftmost(s: string, p: nat, q: nat)
    requires p <= q <= |s|
    requires forall j :: p <= j < q ==> MatchAt(s, j).None?
    ensures Leftmost(s, p, SplitFrom(s, p, q))
    decreases |s| - q
  {
    if q < |s| {
      match MatchAt(s, q)
      case Some(e) =>
        var rest := SplitFrom(s, e, e);
        SplitFromLeftmost(s, e, e);
        assert ([s[p..q], s[q..e]] + rest)[2..] == rest;
      case None =>
        SplitFromLeftmost(s, p, q + 1);
    }
  }

  /** A leftmost split is what the scan produces, from any position the
      scan can reach inside its first piece. */
  lemma {:induction false} LeftmostIsSplit(s: string, p: nat, q: nat, parts: seq<string>)
    requires p <= q <= |s|
    requires Leftmost(s, p, parts) && q <= p + |parts[0]|
    ensures parts == SplitFrom(s, p, q)
    decreases |s| - q
  {
    var cut := p + |parts[0]|;
    if q < cut {
      assert MatchAt(s, q).None?;
      LeftmostIsSplit(s, p, q + 1, parts);
    } else if |parts| == 1 {
      assert s[p..cut] == s[p..];
      assert parts == [parts[0]];
    } else {
      var e := MatchAt(s, q).value;
      LeftmostIsSplit(s, e, e, parts[2..]);
      SplitPieces(parts, s[p..q], s[q..e]);
    }
  }

  lemma SplitPieces(parts: seq<string>, x: string, y: string)
    requires |parts| >= 2 && parts[0] == x && parts[1] == y
    ensures parts == [x, y] + parts[2..]
  {
  }

  /** The pieces of `split` are the leftmost split, and no other sequence
      of pieces is: which text ends up bold is fully determined. */
  lemma SplitBoldLeftmost(text: string, parts: seq<string>)
    ensures Leftmost(text, 0, SplitBold(text))
    ensures Leftmost(text, 0, parts) ==> parts == SplitBold(text)
  {
    SplitFromLeftmost(text, 0, 0);
    if Leftmost(text, 0, parts) {
      LeftmostIsSplit(text, 0, 0, parts);
    }
  }

  /** The bold runs of "**a**b**": the first match wins, so the trailing
      "b**" stays plain. */
  lemma SplitBoldFirstMatchWins()
    ensures SplitBold("**a**b**") == ["", "**a**", "b**"]
  {
    var s := "**a**b**";
    var parts: seq<string> := ["", "**a**", "b**"];
    assert OccursAt(s, Stars, 0) by { assert s[0..2] == Stars; }
    assert OccursAt(s, Stars, 3) by { assert s[3..5] == Stars; }
    assert BoldSpanAt(s, 0, 5);
    MatchAtComplete(s, 0, 5);
    assert MatchAt(s, 5).None? && MatchAt(s, 7).None?;
    assert MatchAt(s, 6).None? by {
      assert !OccursAt(s, Stars, 8);
    }
    assert parts[0] == s[0..0] && parts[1] == s[0..5] && parts[2..][0] == s[5..8];
    assert Leftmost(s, 5, parts[2..]);
    assert Leftmost(s, 0, parts);
    SplitBoldLeftmost(s, parts);
  }

  /** `part.slice(2, -2)`: empty when the part has four characters or fewer. */
  function SliceInner(part: string): (r: string)
    ensures |part| >= 4 ==> "**" + r + "**" == part || !(StartsWith(part, Stars) && EndsWith(part, Stars))
    ensures |part| <= 4 ==> r == ""
  {
    if |part| >= 4 then part[2..|part| - 2] else ""
  }

  /** How `parseBold` shows one piece: bold exactly when it begins and ends
      with `**`, with two characters dropped from each end. */
  function ShowPiece(part: string): (r: Inline)
    ensures r.Bold? <==> StartsWith(part, Stars) && EndsWith(part, Stars)
    ensures r.Plain? ==> r.text == part
    ensures r.Bold? ==> |r.text| == if |part| >= 4 then |part| - 4 else 0
    ensures r.Bold? && |part| >= 4 ==> Stars + r.text + Stars == part
  {
    if StartsWith(part, Stars) && EndsWith(part, Stars) then Bold(SliceInner(part)) else Plain(part)
  }

  /** `parseBold`: one displayed run per piece of the split. */
  function ParseBold(text: string): (r: seq<Inline>)
    ensures |r| == |SplitBold(text)|
    ensures |r| % 2 == 1
    ensures forall i :: 0 <= i < |r| && i % 2 == 1 ==> r[i].Bold? && Stars + r[i].text + Stars == SplitBold(text)[i]
    ensures forall i :: 0 <= i < |r| && i % 2 == 0 ==>
      && (r[i].Bold? <==> LoneDelimiter(SplitBold(text)[i]))
      && (r[i].Plain? ==> r[i].text == SplitBold(text)[i])
      && (r[i].Bold? ==> r[i].text == SliceInner(SplitBold(text)[i]))
  {
    var parts := SplitBold(text);
    SplitBoldShape(text);
    seq(|parts|, i requires 0 <= i < |parts| => ShowPiece(parts[i]))
  }

  /** The source text a run stands for. */
  function Markup(run: Inline): string
  {
    match run
    case Plain(t) => t
    case Bold(t) => Stars + t + Stars
  }

  function MarkupAll(runs: seq<Inline>): string
  {
    if |runs| == 0 then "" else Markup(runs[0]) + MarkupAll(runs[1..])
  }

  /** An unmatched piece that nevertheless begins and ends with `**` (such as a
      lone `**` or `***`) is shown as bold text with its asterisks removed. */
  predicate LoneDelimiter(part: string) {
    StartsWith(part, Stars) && EndsWith(part, Stars) && !IsBoldSpan(part)
  }

  lemma {:induction false} MarkupPieces(runs: seq<Inline>, parts: seq<string>)
    requires |runs| == |parts|
    requires forall i :: 0 <= i < |runs| ==> Markup(runs[i]) == parts[i]
    ensures MarkupAll(runs) == Concat(parts)
  {
    if |runs| > 0 {
      MarkupPieces(runs[1..], parts[1..]);
    }
  }

  /** Writing the runs back as markup restores the text, unless an unmatched
      piece is a lone delimiter. */
  lemma ParseBoldRoundTrip(text: string)
    requires forall i :: 0 <= i < |SplitBold(text)| ==> !LoneDelimiter(SplitBold(text)[i])
    ensures MarkupAll(ParseBold(text)) == text
  {
    var parts := SplitBold(text);
    var runs := ParseBold(text);
    SplitBoldShape(text);
    forall i | 0 <= i < |runs|
      ensures Markup(runs[i]) == parts[i]
    {
      if i % 2 == 0 {
        assert !BoldSpanAt(parts[i], 0, |parts[i]|);
      }
    }
    MarkupPieces(runs, parts);
    SplitBoldConcat(text);
  }

  /** A bold run between plain text, and a lone `**`, which no match covers
      but which still begins and ends with `**` and so shows as empty bold text. */
  lemma ParseBoldExamples()
    ensures ParseBold("a**b**c") == [Plain("a"), Bold("b"), Plain("c")]
    ensures ParseBold("**") == [Bold("")]
  {
    var s := "a**b**c";
    assert !OccursAt(s, Stars, 0) by { assert s[0..2][0] == 'a'; }
    assert MatchAt(s, 0).None?;
    assert OccursAt(s, Stars, 1) by { assert s[1..3] == "**"; }
    assert !OccursAt(s, Stars, 3) by { assert s[3..5][0] == 'b'; }
    assert OccursAt(s, Stars, 4) by { assert s[4..6] == "**"; }
    assert CloseFrom(s, 4) == Some(6);
    assert CloseFrom(s, 3) == Some(6);
    assert MatchAt(s, 1) == Some(6);
    assert SplitFrom(s, 6, 7) == ["c"];
    assert MatchAt(s, 6).None?;
    assert SplitFrom(s, 6, 6) == ["c"];
    assert SplitFrom(s, 0, 1) == [s[0..1], s[1..6]] + SplitFrom(s, 6, 6);
    assert s[0..1] == "a" && s[1..6] == "**b**";
    assert SplitBold(s) == ["a", "**b**", "c"];
    assert ShowPiece("**b**") == Bold("b") by {
      assert StartsWith("**b**", Stars) && EndsWith("**b**", Stars);
      assert "**b**"[2..3] == "b";
    }
    assert !StartsWith("a", Stars) && !StartsWith("c", Stars);
    var t := "**";
    assert !OccursAt(t, Stars, 1);
    assert CloseFrom(t, 2).None?;
    assert MatchAt(t, 1).None?;
    assert SplitFrom(t, 0, 1) == ["**"];
    assert SplitBold(t) == ["**"];
    assert ShowPiece("**") == Bold("") by {
      assert StartsWith("**", Stars) && EndsWith("**", Stars);
    }
  }

  /** Unmatched pieces that begin and end with `**` still show as bold:
      `"***"` shows as empty bold text. */
  lemma ParseBoldTripleStar()
    ensures ParseBold("***") == [Bold("")]
  {
    var t := "***";
    assert OccursAt(t, Stars, 0) && OccursAt(t, Stars, 1) by {
      assert t[0..2] == Stars && t[1..3] == Stars;
    }
    assert CloseFrom(t, 3).None? && CloseFrom(t, 2).None?;
    assert MatchAt(t, 0).None? && MatchAt(t, 1).None? && MatchAt(t, 2).None?;
    assert SplitFrom(t, 0, 0) == ["***"];
    assert ShowPiece("***") == Bold("") by {
      assert StartsWith(t, Stars) && EndsWith(t, Stars);
    }
  }

  /** `"**\n**"`, which the pattern cannot match across the line break, is
      one unmatched piece and shows the line break in bold. */
  lemma ParseBoldAcrossLineBreak()
    ensures ParseBold("**\n**") == [Bold("\n")]
  {
    var u := "**\n**";
    assert OccursAt(u, Stars, 0) && OccursAt(u, Stars, 3) by {
      assert u[0..2] == Stars && u[3..5] == Stars;
    }
    assert !OccursAt(u, Stars, 1) && !OccursAt(u, Stars, 2) by {
      assert u[1..3][1] == '\n' && u[2..4][0] == '\n';
    }
    assert IsLineTerminator(u[2]);
    assert CloseFrom(u, 2).None? && CloseFrom(u, 5).None?;
    assert MatchAt(u, 0).None? && MatchAt(u, 1).None? && MatchAt(u, 2).None?;
    assert MatchAt(u, 3).None? && MatchAt(u, 4).None?;
    assert SplitFrom(u, 0, 0) == ["**\n**"];
    assert ShowPiece("**\n**") == Bold("\n") by {
      assert StartsWith(u, Stars) && EndsWith(u, Stars);
      assert u[2..3] == "\n";
    }
  }

  /** `p.replace(/^[-*]\s/, '')`: the marker and one whitespace character go
      only when they open the line. */
  function StripBullet(p: string): (r: string)
    ensures |p| >= 2 && (p[0] == '-' || p[0] == '*') && IsSpace(p[1]) ==> r == p[2..]
    ensures !(|p| >= 2 && (p[0] == '-' || p[0] == '*') && IsSpace(p[1])) ==> r == p
  {
    if |p| >= 2 && (p[0] == '-' || p[0] == '*') && IsSpace(p[1]) then p[2..] else p
  }

  /** `p.replace(prefix, '')` on a line that opens with `prefix`: the heading text. */
  function StripHeading(p: string, prefix: string): (r: string)
    requires StartsWith(p, prefix)
    ensures prefix + r == p
  {
    ReplacePrefix(p, prefix);
    assert p == p[..|prefix|] + p[|prefix|..];
    ReplaceFirst(p, prefix, "")
  }

  /** How one line renders. Heading prefixes are matched against the line as
      written, the bullet marker on the trimmed line. */
  function ClassifyLine(p: string): (b: Block)
    ensures b.Spacer? <==> AllSpace(p)
    ensures b.H4? <==> !AllSpace(p) && StartsWith(p, "### ")
    ensures b.H3? <==> !AllSpace(p) && StartsWith(p, "## ") && !StartsWith(p, "### ")
    ensures b.H2? <==> !AllSpace(p) && StartsWith(p, "# ") && !StartsWith(p, "## ") && !StartsWith(p, "### ")
    ensures b.H4? ==> "### " + b.text == p
    ensures b.H3? ==> "## " + b.text == p
    ensures b.H2? ==> "# " + b.text == p
    ensures b.Bullet? <==>
              && !AllSpace(p) && !StartsWith(p, "### ") && !StartsWith(p, "## ") && !StartsWith(p, "# ")
              && (StartsWith(Trim(p), "- ") || StartsWith(Trim(p), "* "))
    ensures b.Paragraph? <==>
              && !AllSpace(p) && !StartsWith(p, "### ") && !StartsWith(p, "## ") && !StartsWith(p, "# ")
              && !(StartsWith(Trim(p), "- ") || StartsWith(Trim(p), "* "))
    ensures b.Bullet? ==> b.body == ParseBold(StripBullet(p))
    ensures b.Paragraph? ==> b.body == ParseBold(p)
    ensures (b.Paragraph? || b.Bullet?) ==> !AllSpace(p)
  {
    TrimEmptyIffAllSpace(p);
    if Trim(p) == "" then Spacer
    else if StartsWith(p, "### ") then H4(StripHeading(p, "### "))
    else if StartsWith(p, "## ") then H3(StripHeading(p, "## "))
    else if StartsWith(p, "# ") then H2(StripHeading(p, "# "))
    else if StartsWith(Trim(p), "- ") || StartsWith(Trim(p), "* ") then
      Bullet(ParseBold(StripBullet(p)))
    else Paragraph(ParseBold(p))
  }

  /** A line opening with a heading prefix is never blank. */
  lemma HeadingNotBlank(p: string)
    requires StartsWith(p, "# ") || StartsWith(p, "## ") || StartsWith(p, "### ")
    ensures ClassifyLine(p).H4? || ClassifyLine(p).H3? || ClassifyLine(p).H2?
  {
    assert p[0] == '#';
    NotAllSpace(p, 0);
  }

  /** The renderer: nothing for empty content, otherwise one block per line,
      in order. */
  function Render(content: string): (r: Option<seq<Block>>)
    ensures r.None? <==> content == ""
    ensures r.Some? ==> |r.value| == |Split(content, '\n')|
    ensures r.Some? ==> forall i :: 0 <= i < |r.value| ==> r.value[i] == ClassifyLine(Split(content, '\n')[i])
  {
    if content == "" then None
    else
      var lines := Split(content, '\n');
      Some(seq(|lines|, i requires 0 <= i < |lines| => ClassifyLine(lines[i])))
  }

  /** Content built from newline-free lines renders to exactly one block per
      line, each the classification of that line. */
  lemma RenderLines(lines: seq<string>)
    requires |lines| >= 1
    requires forall i :: 0 <= i < |lines| ==> '\n' !in lines[i]
    requires Join(lines, "\n") != ""
    ensures Render(Join(lines, "\n")).Some?
    ensures |Render(Join(lines, "\n")).value| == |lines|
    ensures forall i :: 0 <= i < |lines| ==> Render(Join(lines, "\n")).value[i] == ClassifyLine(lines[i])
  {
    SplitJoin(lines, '\n');
  }
}

=== FILE: profile.dfy ===
/**
 * The profile editor of components/UserProfileModal.tsx: the state it opens
 * with, the three single-choice selects, the interest chips that toggle
 * membership, and saving the edited profile.
 */
module ProfileEditor {
  import opened Base
  import opened Types

  /** The profile with nothing chosen. */
  const EmptyProfile: UserProfile := UserProfile("", "", "", [])

  /** `initialProfile || {...}`: the given profile, or the empty one. */
  function InitialProfile(initial: Option<UserProfile>): (p: UserProfile)
    ensures initial.Some? ==> p == initial.value
    ensures initial.None? ==> p.ageGroup == "" && p.prefecture == "" && p.occupation == "" && p.interests == []
  {
    initial.GetOr(EmptyProfile)
  }

  /** `xs.filter(i => i !== x)`. */
  function Remove(xs: seq<string>, x: string): (r: seq<string>)
    ensures x !in r
    ensures forall y :: y in r <==> y in xs && y != x
    ensures |r| <= |xs|
  {
    if |xs| == 0 then []
    else if xs[0] == x then Remove(xs[1..], x)
    else [xs[0]] + Remove(xs[1..], x)
  }

  /** Filtering distributes over concatenation, so the survivors keep their order. */
  lemma {:induction false} RemoveAppend(a: seq<string>, b: seq<string>, x: string)
    ensures Remove(a + b, x) == Remove(a, x) + Remove(b, x)
  {
    if |a| == 0 {
      assert a + b == b;
    } else {
      assert (a + b)[1..] == a[1..] + b;
      RemoveAppend(a[1..], b, x);
    }
  }

  /** The number of occurrences of `x` in `xs`. */
  function Count(xs: seq<string>, x: string): nat {
    if |xs| == 0 then 0 else (if xs[0] == x then 1 else 0) + Count(xs[1..], x)
  }

  /** Filtering removes exactly the occurrences of `x`. */
  lemma {:induction false} RemoveLength(xs: seq<string>, x: string)
    ensures |Remove(xs, x)| == |xs| - Count(xs, x)
  {
    if |xs| > 0 {
      RemoveLength(xs[1..], x);
    }
  }

  /** A list without `x` is left alone by the filter. */
  lemma {:induction false} RemoveAbsent(xs: seq<string>, x: string)
    requires x !in xs
    ensures Remove(xs, x) == xs
  {
    if |xs| > 0 {
      RemoveAbsent(xs[1..], x);
      assert [xs[0]] + xs[1..] == xs;
    }
  }

  predicate NoDuplicates(xs: seq<string>) {
    forall i, j :: 0 <= i < j < |xs| ==> xs[i] != xs[j]
  }

  /** `toggleInterest`: a chosen interest is dropped (every occurrence of it),
      an unchosen one is added at the end; the other fields stay. */
  function ToggleInterest(p: UserProfile, interest: string): (q: UserProfile)
    ensures q.ageGroup == p.ageGroup && q.prefecture == p.prefecture && q.occupation == p.occupation
    ensures interest in q.interests <==> interest !in p.interests
    ensures forall y :: y != interest ==> (y in q.interests <==> y in p.interests)
    ensures interest !in p.interests ==> q.interests == p.interests + [interest]
    ensures interest in p.interests ==> q.interests == Remove(p.interests, interest) && |q.interests| < |p.interests|
  {
    if interest in p.interests then
      var kept := Remove(p.interests, interest);
      RemoveLength(p.interests, interest);
      CountPositive(p.interests, interest);
      p.(interests := kept)
    else p.(interests := p.interests + [interest])
  }

  lemma {:induction false} CountPositive(xs: seq<string>, x: string)
    requires x in xs
    ensures Count(xs, x) > 0
  {
    if xs[0] != x {
      CountPositive(xs[1..], x);
    }
  }

  /** Selecting an unchosen interest and then deselecting it restores the profile. */
  lemma ToggleTwiceRestores(p: UserProfile, interest: string)
    requires interest !in p.interests
    ensures ToggleInterest(ToggleInterest(p, interest), interest) == p
  {
    var added := p.interests + [interest];
    RemoveAppend(p.interests, [interest], interest);
    RemoveAbsent(p.interests, interest);
    assert Remove([interest], interest) == [];
    assert p.interests + [] == p.interests;
  }

  /** Deselecting a chosen interest and selecting it again keeps the same set
      of interests, with that interest moved to the end. */
  lemma ToggleTwiceMovesToEnd(p: UserProfile, interest: string)
    requires interest in p.interests
    ensures var q := ToggleInterest(ToggleInterest(p, interest), interest);
            q.interests == Remove(p.interests, interest) + [interest]
            && (forall y :: y in q.interests <==> y in p.interests)
  {
  }

  /** Toggling never introduces a duplicate. */
  lemma {:induction false} ToggleKeepsNoDuplicates(p: UserProfile, interest: string)
    requires NoDuplicates(p.interests)
    ensures NoDuplicates(ToggleInterest(p, interest).interests)
  {
    if interest in p.interests {
      RemoveKeepsNoDuplicates(p.interests, interest);
    }
  }

  lemma {:induction false} RemoveKeepsNoDuplicates(xs: seq<string>, x: string)
    requires NoDuplicates(xs)
    ensures NoDuplicates(Remove(xs, x))
  {
    if |xs| > 0 {
      assert NoDuplicates(xs[1..]);
      RemoveKeepsNoDuplicates(xs[1..], x);
      if xs[0] != x {
        var r := [xs[0]] + Remove(xs[1..], x);
        forall i, j | 0 <= i < j < |r| ensures r[i] != r[j] {
          if i == 0 {
            assert r[j] in Remove(xs[1..], x);
            assert xs[0] !in xs[1..];
          }
        }
      }
    }
  }

  /** The select handlers: each writes its own field and nothing else. */
  function SetAgeGroup(p: UserProfile, value: string): (q: UserProfile)
    ensures q.ageGroup == value && q.(ageGroup := p.ageGroup) == p
  {
    p.(ageGroup := value)
  }

  function SetPrefecture(p: UserProfile, value: string): (q: UserProfile)
    ensures q.prefecture == value && q.(prefecture := p.prefecture) == p
  {
    p.(prefecture := value)
  }

  function SetOccupation(p: UserProfile, value: string): (q: UserProfile)
    ensures q.occupation == value && q.(occupation := p.occupation) == p
  {
    p.(occupation := value)
  }

  /** A profile every control can show: each select holds the empty choice or
      one of its options, and the interests are distinct catalog entries. */
  predicate Valid(p: UserProfile) {
    && (p.ageGroup == "" || p.ageGroup in AGE_GROUPS)
    && (p.prefecture == "" || p.prefecture in PREFECTURES)
    && (p.occupation == "" || p.occupation in OCCUPATIONS)
    && (forall i :: 0 <= i < |p.interests| ==> p.interests[i] in INTERESTS)
    && NoDuplicates(p.interests)
  }

  /** One user action in the modal; the selects offer "" and their catalog,
      the chips offer the interest catalog. */
  datatype Edit =
    | ChooseAge(age: string)
    | ChoosePrefecture(prefecture: string)
    | ChooseOccupation(occupation: string)
    | Toggle(interest: string)

  predicate Offered(e: Edit) {
    match e
    case ChooseAge(v) => v == "" || v in AGE_GROUPS
    case ChoosePrefecture(v) => v == "" || v in PREFECTURES
    case ChooseOccupation(v) => v == "" || v in OCCUPATIONS
    case Toggle(v) => v in INTERESTS
  }

  function Apply(p: UserProfile, e: Edit): UserProfile {
    match e
    case ChooseAge(v) => SetAgeGroup(p, v)
    case ChoosePrefecture(v) => SetPrefecture(p, v)
    case ChooseOccupation(v) => SetOccupation(p, v)
    case Toggle(v) => ToggleInterest(p, v)
  }

  /** `handleSave` hands the edited profile to the caller after any sequence of edits. */
  function Save(initial: Option<UserProfile>, edits: seq<Edit>): (saved: UserProfile)
    decreases |edits|
  {
    if |edits| == 0 then InitialProfile(initial)
    else Apply(Save(initial, edits[..|edits| - 1]), edits[|edits| - 1])
  }

  /** Editing with the offered choices keeps a valid profile valid. */
  lemma ApplyKeepsValid(p: UserProfile, e: Edit)
    requires Valid(p) && Offered(e)
    ensures Valid(Apply(p, e))
  {
    if e.Toggle? {
      ToggleKeepsNoDuplicates(p, e.interest);
      var q := ToggleInterest(p, e.interest);
      forall i | 0 <= i < |q.interests| ensures q.interests[i] in INTERESTS {
        assert q.interests[i] in q.interests;
        if q.interests[i] != e.interest {
          var k :| 0 <= k < |p.interests| && p.interests[k] == q.interests[i];
        }
      }
    }
  }

  /** Opening the modal without a profile and using only its controls always
      saves a valid profile. */
  lemma {:induction false} SaveValid(edits: seq<Edit>)
    requires forall i :: 0 <= i < |edits| ==> Offered(edits[i])
    ensures Valid(Save(None, edits))
  {
    if |edits| > 0 {
      SaveValid(edits[..|edits| - 1]);
      ApplyKeepsValid(Save(None, edits[..|edits| - 1]), edits[|edits| - 1]);
    }
  }
}

=== FILE: strings.dfy ===
/**
 * String operations of the JavaScript and Python runtimes that the rest of the
 * model relies on: `trim`, `startsWith`/`endsWith`, `split` on one character,
 * `join`, and `replace` with a string pattern (first occurrence only).
 */
module Strings {
  import opened Base

  /** The code points JavaScript counts as WhiteSpace or LineTerminator: exactly
      the set `String.prototype.trim` strips and the regular-expression class
      `\s` matches. */
  predicate IsSpace(c: char) {
    || c == '\t' || c == '\n' || c == '\U{B}' || c == '\U{C}' || c == '\r'
    || c == ' ' || c == '\U{A0}' || c == '\U{1680}'
    || ('\U{2000}' <= c <= '\U{200A}')
    || c == '\U{2028}' || c == '\U{2029}' || c == '\U{202F}' || c == '\U{205F}'
    || c == '\U{3000}' || c == '\U{FEFF}'
  }

  predicate AllSpace(s: string) {
    forall i :: 0 <= i < |s| ==> IsSpace(s[i])
  }

  predicate StartsWith(s: string, prefix: string) {
    |prefix| <= |s| && s[..|prefix|] == prefix
  }

  predicate EndsWith(s: string, suffix: string) {
    |suffix| <= |s| && s[|s| - |suffix|..] == suffix
  }

  /** Removes leading whitespace. */
  function TrimStart(s: string): (r: string)
    ensures |r| <= |s| && r == s[|s| - |r|..]
    ensures AllSpace(s[..|s| - |r|])
    ensures r == [] || !IsSpace(r[0])
  {
    if |s| > 0 && IsSpace(s[0]) then
      var r := TrimStart(s[1..]);
      assert s[..|s| - |r|] == [s[0]] + s[1..][..|s| - 1 - |r|];
      r
    else s
  }

  /** Removes trailing whitespace. */
  function TrimEnd(s: string): (r: string)
    ensures |r| <= |s| && r == s[..|r|]
    ensures AllSpace(s[|r|..])
    ensures r == [] || !IsSpace(r[|r| - 1])
  {
    if |s| > 0 && IsSpace(s[|s| - 1]) then
      var r := TrimEnd(s[..|s| - 1]);
      assert s[|r|..] == s[..|s| - 1][|r|..] + [s[|s| - 1]];
      r
    else s
  }

  /** `String.prototype.trim`. */
  function Trim(s: string): (r: string)
  {
    TrimEnd(TrimStart(s))
  }

  /** A string trims to nothing exactly when every character is whitespace. */
  lemma {:induction false} TrimEmptyIffAllSpace(s: string)
    ensures Trim(s) == [] <==> AllSpace(s)
  {
    if Trim(s) == [] {
      TrimEmptyAllSpace(s);
    } else {
      NotAllSpace(s, |s| - |TrimStart(s)|);
    }
  }

  lemma TrimEmptyAllSpace(s: string)
    requires Trim(s) == []
    ensures AllSpace(s)
  {
    var t := TrimStart(s);
    var k := |s| - |t|;
    assert TrimEnd(t) == [];
    assert t[|TrimEnd(t)|..] == t;
    assert s == s[..k] + t;
    AllSpaceConcat(s[..k], t);
  }

  lemma NotAllSpace(s: string, k: nat)
    requires k < |s| && !IsSpace(s[k])
    ensures !AllSpace(s)
  {
  }

  lemma AllSpaceConcat(a: string, b: string)
    requires AllSpace(a) && AllSpace(b)
    ensures AllSpace(a + b)
  {
    forall i | 0 <= i < |a + b| ensures IsSpace((a + b)[i]) {
      if i >= |a| {
        assert (a + b)[i] == b[i - |a|];
      }
    }
  }

  /** `s.split(sep)` for a one-character separator: the maximal pieces between
      separators, always at least one. */
  function Split(s: string, sep: char): (parts: seq<string>)
    ensures |parts| >= 1
    ensures forall i :: 0 <= i < |parts| ==> sep !in parts[i]
  {
    if |s| == 0 then [""]
    else
      var rest := Split(s[1..], sep);
      if s[0] == sep then [""] + rest
      else [[s[0]] + rest[0]] + rest[1..]
  }

  /** `parts.join(sep)` (and Python's `sep.join(parts)`). */
  function Join(parts: seq<string>, sep: string): string
  {
    if |parts| == 0 then ""
    else if |parts| == 1 then parts[0]
    else parts[0] + sep + Join(parts[1..], sep)
  }

  /** Joining two non-empty lists is joining each and putting the separator
      between them: the pieces appear in list order. */
  lemma {:induction false} JoinAppend(a: seq<string>, b: seq<string>, sep: string)
    requires |a| >= 1 && |b| >= 1
    ensures Join(a + b, sep) == Join(a, sep) + sep + Join(b, sep)
  {
    if |a| == 1 {
      assert (a + b)[1..] == b;
    } else {
      assert (a + b)[1..] == a[1..] + b;
      JoinAppend(a[1..], b, sep);
    }
  }

  /** Joining the pieces of a split with the separator restores the string. */
  lemma {:induction false} JoinSplit(s: string, sep: char)
    ensures Join(Split(s, sep), [sep]) == s
  {
    if |s| > 0 {
      var rest := Split(s[1..], sep);
      JoinSplit(s[1..], sep);
      if s[0] == sep {
        assert Split(s, sep) == [""] + rest;
        assert ([""] + rest)[1..] == rest;
        assert s == [sep] + s[1..];
      } else {
        var parts := [[s[0]] + rest[0]] + rest[1..];
        assert Split(s, sep) == parts;
        if |rest| == 1 {
          assert s == [s[0]] + s[1..];
        } else {
          assert parts[1..] == rest[1..];
          assert Join(rest, [sep]) == rest[0] + [sep] + Join(rest[1..], [sep]);
          assert s == [s[0]] + s[1..];
        }
      }
    }
  }

  /** Splitting a join of separator-free pieces gives the pieces back. */
  lemma {:induction false} SplitJoin(parts: seq<string>, sep: char)
    requires |parts| >= 1
    requires forall i :: 0 <= i < |parts| ==> sep !in parts[i]
    ensures Split(Join(parts, [sep]), sep) == parts
  {
    if |parts| == 1 {
      SplitPiece(parts[0], sep);
    } else {
      SplitJoin(parts[1..], sep);
      var tail := Join(parts[1..], [sep]);
      SplitPrefix(parts[0], [sep] + tail, sep);
      assert Split([sep] + tail, sep) == [""] + parts[1..] by {
        assert ([sep] + tail)[1..] == tail;
      }
      assert parts[0] + [sep] + tail == parts[0] + ([sep] + tail);
      assert ([""] + parts[1..])[1..] == parts[1..];
      assert parts[0] + "" == parts[0];
      assert [parts[0]] + parts[1..] == parts;
    }
  }

  /** A separator-free string splits into itself. */
  lemma {:induction false} SplitPiece(s: string, sep: char)
    requires sep !in s
    ensures Split(s, sep) == [s]
  {
    if |s| > 0 {
      SplitPiece(s[1..], sep);
      assert [s[0]] + s[1..] == s;
    }
  }

  /** Prepending separator-free text extends the first piece. */
  lemma {:induction false} SplitPrefix(a: string, b: string, sep: char)
    requires sep !in a
    ensures Split(a + b, sep) == [a + Split(b, sep)[0]] + Split(b, sep)[1..]
  {
    if |a| > 0 {
      SplitPrefix(a[1..], b, sep);
      assert (a + b)[1..] == a[1..] + b;
      assert [a[0]] + (a[1..] + Split(b, sep)[0]) == a + Split(b, sep)[0];
    } else {
      var parts := Split(b, sep);
      assert a + b == b;
      assert a + parts[0] == parts[0];
      assert [parts[0]] + parts[1..] == parts;
    }
  }

  /** `pat` occurs in `s` starting at position `j`. */
  predicate OccursAt(s: string, pat: string, j: nat) {
    j + |pat| <= |s| && s[j..j + |pat|] == pat
  }

  /** The leftmost position at or after `from` where `pat` occurs. */
  function IndexFrom(s: string, pat: string, from: nat): (r: Option<nat>)
    requires from <= |s|
    ensures r.Some? ==> from <= r.value && OccursAt(s, pat, r.value)
    ensures r.Some? ==> forall j: nat :: from <= j < r.value ==> !OccursAt(s, pat, j)
    ensures r.None? ==> forall j: nat :: from <= j ==> !OccursAt(s, pat, j)
    decreases |s| - from
  {
    if from + |pat| > |s| then None
    else if OccursAt(s, pat, from) then Some(from)
    else if from == |s| then None
    else IndexFrom(s, pat, from + 1)
  }

  /** `s.replace(pat, rep)` with a string pattern: only the first occurrence
      is replaced, and a string without one is returned unchanged. */
  function ReplaceFirst(s: string, pat: string, rep: string): string
  {
    match IndexFrom(s, pat, 0)
    case None => s
    case Some(k) => s[..k] + rep + s[k + |pat|..]
  }

  /** When the string begins with the pattern, `replace(pat, "")` strips that
      prefix and nothing else. */
  lemma ReplacePrefix(s: string, pat: string)
    requires StartsWith(s, pat)
    ensures ReplaceFirst(s, pat, "") == s[|pat|..]
  {
    assert s[0..|pat|] == pat;
  }
}

=== FILE: types.dfy ===
/**
 * The front end's shared records (types.ts) and the catalogs of constants.ts
 * that the modelled components read.
 */
module Types {

  /** The four concierge agents. */
  datatype AgentType = GENERAL | SUPPORT | NEWS | ANALYST

  /** The string each enum member carries, which is what travels to the backend. */
  function AgentTypeName(t: AgentType): (name: string)
    ensures name in KnownAgentNames
  {
    match t
    case GENERAL => "GENERAL"
    case SUPPORT => "SUPPORT"
    case NEWS => "NEWS"
    case ANALYST => "ANALYST"
  }

  const KnownAgentNames: set<string> := {"GENERAL", "SUPPORT", "NEWS", "ANALYST"}

  /** Distinct agents travel under distinct names. */
  lemma AgentTypeNameInjective(a: AgentType, b: AgentType)
    ensures AgentTypeName(a) == AgentTypeName(b) <==> a == b
  {
  }

  /** One entry of the agent picker. */
  datatype AgentConfig = AgentConfig(id: AgentType, name: string, description: string, icon: string, color: string)

  const AGENTS: seq<AgentConfig> := [
    AgentConfig(GENERAL, "総合コンシェルジュ", "Google検索を活用した汎用アシスタント", "\U{2728}", "bg-red-500"),
    AgentConfig(SUPPORT, "カスタマーサポート", "規定に基づいた正確なサポート", "\U{1F6E1}\U{FE0F}", "bg-emerald-500"),
    AgentConfig(NEWS, "マーケットアナリスト", "金融ニュースの解説と記事作成", "\U{1F4F0}", "bg-indigo-500"),
    AgentConfig(ANALYST, "家計アドバイザー", "取引データの分析とアドバイス", "\U{1F4CA}", "bg-amber-500")
  ]

  /** A citation shown under a model message. */
  datatype GroundingUrl = GroundingUrl(title: string, uri: string)

  /** The profile the user edits; empty strings mean "not chosen". */
  datatype UserProfile = UserProfile(ageGroup: string, prefecture: string, occupation: string, interests: seq<string>)

  /** A decoded PCM buffer: its sample rate and one sample sequence per channel. */
  datatype AudioBuffer = AudioBuffer(sampleRate: int, channels: seq<seq<real>>)

  const AGE_GROUPS: seq<string> := ["10代", "20代", "30代", "40代", "50代", "60代", "70代", "80代以上"]

  const PREFECTURES: seq<string> := [
    "北海道", "青森県", "岩手県", "宮城県", "秋田県", "山形県", "福島県",
    "茨城県", "栃木県", "群馬県", "埼玉県", "千葉県", "東京都", "神奈川県",
    "新潟県", "富山県", "石川県", "福井県", "山梨県", "長野県", "岐阜県",
    "静岡県", "愛知県", "三重県", "滋賀県", "京都府", "大阪府", "兵庫県",
    "奈良県", "和歌山県", "鳥取県", "島根県", "岡山県", "広島県", "山口県",
    "徳島県", "香川県", "愛媛県", "高知県", "福岡県", "佐賀県", "長崎県",
    "熊本県", "大分県", "宮崎県", "鹿児島県", "沖縄県"
  ]

  const OCCUPATIONS: seq<string> := [
    "会社員", "公務員", "自営業", "役員", "学生", "主婦・主夫", "パート・アルバイト", "退職・年金受給", "その他"
  ]

  const INTERESTS: seq<string> := [
    "株式投資", "投資信託", "不動産", "FX・暗号資産", "節約・貯金",
    "旅行", "グルメ", "テクノロジー", "ファッション", "健康・ヘルスケア",
    "スポーツ", "映画・音楽"
  ]
}
